=== FILE: README.md ===
# Sudoku solver core, modelled in Dafny

This project models the solving core of a small Python Sudoku solver with
variant constraints. The solver supports classic Sudoku, killer cages and
Kropki dots. The model covers four source files, one Dafny module each,
plus a helper module:

- `Collections` (`collections.dfy`) holds list and set helpers:
  - the elements of a list;
  - duplicate-freedom and ascending order;
  - sums;
  - the ascending enumeration of a set of digits.
- `SudokuCell` (`sudoku_cell.dfy`) models `SudokuCell.py`. A cell has a row,
  a column, a value (0 when empty), a candidate domain, and the list of
  constraints it takes part in.
- `Constraints` (`constraints.dfy`) models `Constraints.py`. It covers four
  kinds of constraint:
  - Row, column and box groups (one `Group` variant), checked for no
    repeated digit.
  - Killer cages. Each cage has a target sum and a table of the digit
    combinations that reach it (`find_possible_sums`).
  - White Kropki dots, where the two digits are consecutive.
  - Black Kropki dots, where one digit is double the other.

  For each kind the module models `verify_constraint` and `propagate`.
- `SudokuBoard` (`sudoku_board.dfy`) models `SudokuBoard.py` and the two
  cell methods:
  - `set_value` and `add_constraint`;
  - the construction of the empty board with its 27 groups;
  - the choice of the empty cell with the fewest candidates;
  - the loop that fills cells with a single candidate.
- `Solver` (`solver.py` → `solver.dfy`) models the backtracking search
  `recursive_solve` and its wrapper `solve`.

The model uses value semantics throughout:
- A board is a list of 81 cells in row-major order, so the cell at row r,
  column c sits at index 9r+c. The board also holds a list of constraints.
- A cell refers to its constraints by their positions in the board's list.
  The Python objects share references instead.
- Python mutates a deep copy of the board. Here an operation returns a new
  board, so `copy.deepcopy` needs no model.
- The GUI callbacks become traces:
  - the cell callback is a list of `(row, col, value)` updates, in call order;
  - the state callback is the list of GUI states reported.

Some behaviour was decided as follows:
- **Candidate order.** Python iterates a set in hash-table order, which
  depends on the table's size and history. The model chooses to try
  candidates in ascending order (`Collections.Ascending`).
- **`is_solved`.** The search calls `is_solved`, but no source file defines
  it. It is modelled as its evident meaning (`SudokuBoard.IsSolved`):
  - every cell is filled;
  - every constraint verifies.
- **Branch-cell tie-break.** The code uses Python's `min` over the cells in
  row-major order, with no secondary key, so ties go to the earliest cell
  (`SudokuBoard.FindLeast`).
- **Black-dot propagation.** The code never tests 5, 7 or 9 explicitly when
  it propagates. With both cells empty, a candidate survives only if it has
  a double or a half in the other domain. With domains inside 1..9, that
  removes 5, 7 and 9 anyway (`Constraints.BlackPropagateDropsExcluded`).
- **Retraction.** After a failed branch, the code calls `set_value(0)`.
  That call runs propagation again, but on a copy the search then throws
  away. So the model keeps only its visible effect: the `(row, col, 0)`
  callback.

Reading the code closely showed three defects, listed under Findings.
Each one is modelled twice:
- once as written, with a lemma that exhibits the defect;
- once corrected, with the intended property proved.

The corrected definitions are the ones the rest of the model uses.

Proved properties include:
- **Group verification.** It holds exactly when no digit repeats among the
  group's cells.
- **Cage verification.** It holds exactly when all of these hold:
  - no digit repeats;
  - the sum is below the target while the cage is unfinished, and equals
    the target once it is full;
  - some digit combination with the cage's size and target contains the
    placed digits.
- **Combination table.** It holds exactly the k-digit sets that reach the
  target.
- **Dot propagation.** It keeps exactly the candidates that have a partner:
  - with both cells empty, a partner in the other cell's domain;
  - with one cell assigned, a partner in that cell's value.

  With one cell assigned, this agrees with verification.
- **Propagation never widens.** Every propagation and every `set_value` only
  narrows domains and leaves values alone.
- **The empty board.** It has 27 groups of 9 distinct cells. Each cell is
  linked to exactly its row, column and box, in the order the code builds
  them.
- **The single-candidate fill.** Each round fills the branch cell only when
  its domain holds a single digit, and reports that cell and digit. Placed
  values are preserved, and no cell is filled twice. It raises exactly when
  the board has no empty cell.
- **Search soundness.** The corrected search returns only solved boards that
  extend the input.
- **Traces.** Replaying the cell-update trace onto the input's values gives
  back the returned board's values, or the input's values when the search
  fails.
- **Agreement.** The as-written search and the corrected search emit the
  same trace and succeed on the same boards, whenever the as-written search
  does not raise.

## Model

| member | source | states |
|---|---|---|
| `SudokuCell.NewCell` | SudokuCell.py:2-8 | A new cell is at the given row and column, empty, with no constraints, and has exactly the digits 1..9 as candidates |
| `SudokuCell.IdInjective` | SudokuCell.py:5 | On the 9x9 grid, two cells share the identifier `row*10+col` exactly when they share row and column |
| `SudokuBoard.SetValue` | SudokuCell.py:10-13 | Setting a value keeps the board well formed and the constraint list unchanged; the cell holds the new value; every cell, the set one included, only loses candidates through the propagation that follows |
| `SudokuBoard.PropagateLinks` | SudokuCell.py:12-13 | Running the propagation of each of a cell's constraints in turn only narrows domains and never changes a value |
| `SudokuBoard.SetValueFills` | SudokuCell.py:10-11 | Giving an empty cell a digit removes exactly that cell from the set of empty cells and keeps every value already placed |
| `SudokuBoard.LinkedKept` | SudokuCell.py:10-13 | Setting a value never changes a cell's constraint list, so a consistently linked board stays linked and the clearing property keeps applying as clues are set |
| `SudokuBoard.SetValueClearsPeers` | SudokuCell.py:10-13 | On a consistently linked board, after a digit is placed, no empty cell sharing a group or cage with it keeps that digit as a candidate |
| `SudokuBoard.PropagateLinksClears` | SudokuCell.py:12-13 | If one of the propagated constraints is a group or cage containing the placed cell, its digit is gone from every empty member's domain at the end of the whole sequence |
| `SudokuBoard.AddConstraint` | SudokuCell.py:15-17 | Adding a constraint appends its index to the cell's list, keeping the earlier entries; the propagation that follows only narrows domains |
| `SudokuBoard.AddConstraintClears` | SudokuCell.py:15-17 | After a row, column, box or cage is added, no empty member of it keeps as a candidate a digit another member holds |
| `Solver.SetValueValues` | SudokuCell.py:10-13 | On the board's grid of values, setting a value changes exactly that one position, since propagation never touches values |
| `Collections.DistinctIffSameSize` | Constraints.py:25-28 | A list has no repeated entry exactly when it is as long as its set of elements, so the length comparison the code makes is a duplicate test |
| `Constraints.PlacedHolds` | Constraints.py:25 | A digit appears among the nonzero values of a constraint's cells exactly when some member cell holds it |
| `Constraints.PlacedFull` | Constraints.py:102 | The nonzero values are as many as the cells exactly when every member cell is filled |
| `Constraints.PlacedDistinct` | Constraints.py:25-28 | The nonzero values have no repeat exactly when no two distinct member positions hold the same nonzero digit |
| `Constraints.Placed` | Constraints.py:25 | The placed values, in list order, are at most as many as the cells; their contents are characterised by `Constraints.PlacedHolds`, `Constraints.PlacedFull` and `Constraints.PlacedDistinct` |
| `Constraints.VerifyGroup` | Constraints.py:23-28 | Row, column and box verification as the code computes it; characterised by `Constraints.GroupVerifyIff` |
| `Constraints.GroupVerifyIff` | Constraints.py:23-28 | Row, column and box verification succeeds exactly when no two filled cells of the group hold the same digit |
| `Constraints.RemovePlaced` | Constraints.py:30-35 | Group propagation only narrows domains and leaves every cell outside the group unchanged |
| `Constraints.RemovePlacedExact` | Constraints.py:30-35 | After group propagation, an empty member keeps exactly the candidates that no member holds; a filled member is unchanged |
| `Constraints.RemovePlacedClears` | Constraints.py:30-35 | After group propagation, a digit held by one member is not a candidate of any empty member |
| `Constraints.Propagate` | Constraints.py:14-17 | Propagating any constraint only removes candidates of its own cells: lengths, values and the cells it does not name are unchanged |
| `Constraints.PropagateClearsPlaced` | Constraints.py:120-125 | Group and cage propagation remove every placed member's digit from every empty member's domain |
| `Constraints.Combinations` | Constraints.py:82 | The `itertools.combinations(range(1,10), k)` enumeration; characterised by `Constraints.CombinationsSound` and `Constraints.CombinationsComplete` |
| `Constraints.PossibleSums` | Constraints.py:80-82 | `find_possible_sums`; characterised by `Constraints.PossibleSumsExact` |
| `Constraints.SumsOf` | Constraints.py:82 | A set is in the filtered table exactly when it is the element set of some listed combination whose sum is the target |
| `Constraints.CombinationsSound` | Constraints.py:82 | Every listed combination has k digits in strictly ascending order, all between the lower bound and 9 |
| `Constraints.CombinationsComplete` | Constraints.py:82 | Every strictly ascending k-digit list within the bounds is listed, so the enumeration misses no combination |
| `Constraints.PossibleSumsExact` | Constraints.py:80-82 | The cage's table holds a set exactly when it is a set of k distinct digits from 1..9 summing to the target |
| `Constraints.PossibleSumsSeventeen` | Constraints.py:80-82 | Worked instance: for two cells, the table for 17 holds a set exactly when it is {8, 9} |
| `Constraints.NewCage` | Constraints.py:74-82 | The cage constructor keeps the cells and the target, and its table holds exactly the sets of as many distinct digits as the cage has cells that sum to the target |
| `Constraints.VerifyCage` | Constraints.py:85-115 | Cage verification as the code computes it, its four checks in order; characterised by `Constraints.CageVerifyIff` |
| `Constraints.CageVerifyIff` | Constraints.py:74-115 | A cage built by the constructor verifies exactly when no digit repeats, the sum equals the target once the cage is full and stays below it before, and the placed digits fit inside some combination reaching the target |
| `Constraints.CageSeventeenAccepts` | Constraints.py:94-115 | Any two-cell cage with target 17 whose first cell holds 8 and second holds 9 verifies |
| `Constraints.CageSeventeenRejectsSeven` | Constraints.py:94-115 | Any two-cell cage with target 17 whose first cell holds 7 and second is empty fails, because no combination reaching 17 contains 7 |
| `Constraints.DotVerifySymmetric` | Constraints.py:140-153 | Dot verification gives the same answer whichever of the two cells comes first |
| `Constraints.VerifyDot` | Constraints.py:136-153 | Dot verification with the dot's kind as a datatype; characterised by `Constraints.DotVerifyFilled` and `Constraints.DotVerifyPending` |
| `Constraints.DotVerifyFilled` | Constraints.py:143-153 | With both cells filled with digits, a white dot verifies exactly when they are consecutive and a black dot exactly when one is twice the other |
| `Constraints.DotVerifyPending` | Constraints.py:143-153 | With a cell still empty, a white dot always verifies, and a black dot verifies exactly when neither value is 5, 7 or 9 |
| `Constraints.PropagateDot` | Constraints.py:155-201 | Dot propagation only narrows domains, and only those of the dot's two cells |
| `Constraints.SupportedIff` | Constraints.py:162-187 | The code's membership tests (v±1, or v*2 and v//2 for even v) find a partner exactly when the other domain holds a value related to v by the dot |
| `Constraints.DotPropagateBothEmpty` | Constraints.py:159-189 | With both cells empty, each cell keeps exactly the candidates that have a related candidate in the other cell's original domain |
| `Constraints.DotPropagateOneAssigned` | Constraints.py:171-201 | With exactly one cell assigned, the empty cell keeps exactly its candidates related to the assigned value |
| `Constraints.DotPropagateMatchesVerify` | Constraints.py:143-201 | With one cell holding a digit, propagation keeps a digit as candidate of the empty cell exactly when placing it there would pass verification |
| `Constraints.BlackPropagateDropsExcluded` | Constraints.py:178-189 | With both cells empty and digit domains, black-dot propagation leaves neither domain holding 5, 7 or 9 |
| `Constraints.Verify` | Constraints.py:10-12 | `verify_constraint` dispatched on the constraint's kind to `Constraints.VerifyGroup`, `Constraints.VerifyCage` or `Constraints.VerifyDot` |
| `Constraints.VerifyDotTagged` | Constraints.py:136-153 | Dot verification as written, with the type as a string: it yields a truth value exactly when the type is "white" or "black", and None otherwise |
| `Constraints.PropagateDotTagged` | Constraints.py:155-201 | Dot propagation as written, with the type as a string: whatever the type, it only narrows the domains of the dot's two cells |
| `Constraints.EnumTagsMatchNoBranch` | Constraints.py:143-175 | As written, with the dot types the callers pass, verification reaches neither branch and returns None, and propagation prunes nothing |
| `Constraints.PlainTagsAgree` | Constraints.py:143-175 | Had the type been the string "white" or "black", the as-written branches would coincide with the corrected dot verification and propagation |
| `SudokuBoard.Scan` | SudokuBoard.py:11-12 | The scan finds nothing exactly when every cell is filled; otherwise it finds the earliest empty cell with the fewest candidates |
| `SudokuBoard.FindLeast` | SudokuBoard.py:10-14 | The result is None exactly when no cell is empty; otherwise it is an empty cell whose candidate count is minimal, earlier ones strictly larger |
| `SudokuBoard.LeastUnique` | SudokuBoard.py:12 | At most one cell is the earliest empty cell of minimal candidate count, so the choice is deterministic |
| `Solver.LeastFound` | SudokuBoard.py:10-14 | Conversely, whenever a cell is the earliest minimal empty cell, it is the cell chosen |
| `SudokuBoard.Only` | SudokuBoard.py:19 | Popping a one-element digit set yields its single element |
| `SudokuBoard.Pop` | SudokuBoard.py:19 | Popping the candidate empties that cell's domain and changes nothing else |
| `SudokuBoard.FillOne` | SudokuBoard.py:18-20 | Filling a single-candidate cell places its only candidate, empties its domain, removes it from the empty set, keeps its position and every placed value, and every other cell only loses candidates |
| `SudokuBoard.FillFrom` | SudokuBoard.py:18-23 | The fill loop never raises once it has a cell. Each reported update is for a distinct cell that was empty, was the branch cell of the board its round began with, and had the reported digit as its only candidate; it names that cell's row, column and final value. The rounds chain from the input board to the result; placed values and positions are kept, cells left empty only lose candidates, and the loop stops only when no cell is empty or the next branch cell has not exactly one candidate |
| `SudokuBoard.FillSingles` | SudokuBoard.py:16-23 | The fill raises exactly on a board with no empty cell, then changing nothing; otherwise it makes at most 81 rounds with every guarantee of `SudokuBoard.FillFrom` |
| `SudokuBoard.FillOkCons` | SudokuBoard.py:18-21 | A round that fills the single-candidate branch cell, followed by a finished run, is a finished run from the earlier board |
| `SudokuBoard.EmptyBoard` | SudokuBoard.py:25-57 | The board `create_empty_board` returns, in closed form; characterised by `SudokuBoard.EmptyBoardCells`, `SudokuBoard.EmptyBoardLinks` and `SudokuBoard.EmptyBoardWellFormed`, and equal to what `SudokuBoard.CreateEmptyBoard` builds |
| `SudokuBoard.EmptyBoardCells` | SudokuBoard.py:27 | The empty board has 81 cells and 27 constraints; the cell at index p is at row p/9 and column p%9, empty, with every digit a candidate |
| `Solver.EmptyBoardPositioned` | SudokuBoard.py:27 | Every cell of the empty board records the row and column of its index |
| `SudokuBoard.LinksUpTo` | SudokuBoard.py:30-55 | After the first n groups are built, a cell's links are ascending and name exactly the groups among the first n that contain it |
| `SudokuBoard.InRow` | SudokuBoard.py:32 | Row i holds exactly the cells with index/9 == i |
| `SudokuBoard.InColumn` | SudokuBoard.py:39 | Column i holds exactly the cells with index%9 == i |
| `SudokuBoard.BoxCellAt` | SudokuBoard.py:49-51 | The t-th cell of a box is at row 3*box_row + t/3 and column 3*box_col + t%3, inside the grid |
| `SudokuBoard.InBox` | SudokuBoard.py:46-51 | A box holds exactly the cells whose row and column fall into its band and stack |
| `SudokuBoard.InGroup` | SudokuBoard.py:30-55 | A cell belongs to exactly three of the 27 groups: its row, its column and its box, at the positions the build order gives them |
| `SudokuBoard.EmptyBoardLinks` | SudokuBoard.py:30-55 | Each cell of the empty board is linked to its row, column and box, rows and columns interleaved in build order, box last |
| `SudokuBoard.EmptyBoardWellFormed` | SudokuBoard.py:30-55 | The empty board is well formed and its links agree in both directions with the groups' cell lists |
| `SudokuBoard.GroupDistinct` | SudokuBoard.py:30-51 | Every row, column and box lists 9 distinct cells of the grid |
| `SudokuBoard.LinkAll` | SudokuBoard.py:35-36 | Appending a constraint to each of a group's cells adds its index to exactly those cells' links and changes nothing else |
| `SudokuBoard.AddGroup` | SudokuBoard.py:33-36 | Appending the next group and linking it keeps the partial board in its build-order shape |
| `SudokuBoard.CreateEmptyBoard` | SudokuBoard.py:25-57 | The step-by-step construction yields exactly the empty board described by the lemmas above |
| `Collections.Ascending` | solver.py:30 | The candidates to try are the domain's elements, each once, in strictly ascending order |
| `Collections.IncreasingUnique` | solver.py:30 | An ascending list is determined by its set, so the candidate order is fixed by the domain |
| `Solver.Candidates` | solver.py:23-30 | The candidate list holds exactly the domain's values, ascending, each a digit 1..9 |
| `Solver.OneCandidate` | solver.py:23-30 | A cell whose domain is {1} is tried with the single candidate 1 |
| `Solver.RecursiveSolve` | solver.py:18-42 | The search returns a board only if it is solved and keeps every value of the input; an already solved board is returned at once, with no updates |
| `Solver.TryCandidates` | solver.py:29-42 | Trying the candidates in turn succeeds only with a solved board that keeps every value of the input |
| `Solver.Solve` | solver.py:6-15 | The state trace is Solving, then Solved exactly when a board is returned and IncorrectSolve exactly when none is; a returned board is solved and extends the input |
| `Solver.RecursiveSolveReplays` | solver.py:35-42 | Applying the reported updates in order to the input's values yields the returned board's values, or the input's values when the search fails |
| `Solver.TryCandidatesReplays` | solver.py:30-42 | The same replay property for the loop over candidates |
| `Solver.FailedCandidateReplays` | solver.py:41-42 | After a failed candidate, the reported reset to 0 restores the cell, so the replay continues from the input's values |
| `Solver.EmptyDomainFails` | solver.py:22-27 | When the chosen cell has no candidates, both the corrected and the as-written search fail at once with no updates |
| `Solver.ClashNeverSolved` | solver.py:18-42 | A board with two equal digits in one group is never solved by the search |
| `Solver.FullBoardSearch` | solver.py:19-23 | On a board with no empty cell, the corrected search succeeds exactly when the board is solved, with no updates |
| `Solver.RecursiveSolveAsWritten` | solver.py:18-42 | As written, a solved input is returned at once, and any board returned keeps every value of the input |
| `Solver.TryAsWritten` | solver.py:30-42 | As written, a successful candidate returns the copy one step deep: it extends the input and has exactly one fewer empty cell |
| `Solver.AsWrittenAgrees` | solver.py:18-42 | Unless the as-written search raises, it reports the same updates as the corrected search and returns a board exactly when the corrected search does |
| `Solver.TryAsWrittenAgrees` | solver.py:30-42 | The same agreement for the loop over candidates |
| `Solver.AsWrittenReturnsUnsolvedCopy` | solver.py:38-39 | With two or more empty cells, a board the as-written search returns still has an empty cell, so it is not solved |
| `SudokuBoard.IsSolved` | solver.py:19 | The `is_solved` the search calls: every cell filled and every constraint verifies; `Solver.NotSolvedWhileEmpty` and `Solver.GapsSolved` exercise it |
| `Solver.NotSolvedWhileEmpty` | solver.py:19 | A board with an empty cell is not solved |
| `Solver.AsWrittenRaisesOnFullUnsolved` | solver.py:22-23 | As written, a full but unsolved board makes the search raise with no updates, where the corrected search fails |
| `Solver.GapsLeast` | SudokuBoard.py:10-14 | In the two-gap example, the chosen cell is the first remaining gap |
| `Solver.GapsFill` | solver.py:30-35 | In the two-gap example, the only candidate is 1, and placing it yields the next example board |
| `Solver.GapsSolved` | solver.py:19-20 | With both gaps filled the example board is solved and both searches return it unchanged |
| `Solver.SingleCandidateStep` | solver.py:30-39 | With a single candidate whose child search succeeds, the corrected search returns the child's board |
| `Solver.SingleCandidateStepAsWritten` | solver.py:38-39 | With a single candidate whose child search succeeds, the as-written search returns the copy with only that candidate placed |
| `Solver.TwoGapsShowsCopyReturned` | solver.py:38-39 | On the two-gap board, the corrected search returns the solved board, but the as-written one returns a board with a gap left |
| `Solver.FullClashRaises` | solver.py:19-23 | A full board with two equal digits in one group is not solved, so the as-written search raises and the corrected one fails |
| `Solver.OnesShowsRaise` | solver.py:22-23 | Filling every cell of a board with row 0 first with 1 gives a full unsolved board on which the as-written search raises |
| `Solver.EmptyBoardOnesRaise` | solver.py:22-23 | Concretely, the empty board filled with 1s makes the as-written search raise |

## Left out

- The GUI (`GUI.py`) and the program entry (`main.py`) are not part of this model. They draw the board and call the core, and neither is needed for the core's logic.
- Loading puzzles from JSON (`predefined_sudoku_utils.py`) is file I/O and is left out.
- The enums of `enums.py` become datatypes (`GroupKind`, `DotKind`, `GuiState`). The dot-type strings survive only in the as-written dot functions.
- `copy.deepcopy` and object identity: boards are values, so every copy is independent by construction.
- The propagation that `set_value(0)` triggers after a failed branch (solver.py:41) acts on a copy that is then discarded. Only its callback is kept in the trace.
- The order in which solver.py:30 tries candidates is Python's set iteration order, which is hash-table order and not ascending in general (a copied domain {1, 8} can yield 8 first). The model chooses ascending order instead; soundness and the replay properties do not depend on the order, but the exact trace does.
- The callbacks are modelled as returned traces. Their side effects on the GUI are left out.
- Solver.RecursiveSolve: states soundness only, not completeness. It does not say that a solvable board is always solved, because that would need a proof that propagation never removes a digit some solution uses, which is not stated here.
- The cage's further propagation is only a TO-DO comment in the source (Constraints.py:127-129). No code implements it, so there is nothing to model.
- `Constraint.__init__` and the cage's stored `cells_in_cage` are folded into the `Constraint` datatype; the cage's length is `|cells|`.
- Integer width: values and domains are mathematical integers, as Python's integers are, so no wrap-around arises.

## Findings

| source | as written | input that shows it | evidently intended | confidence | as-written member | corrected member |
|---|---|---|---|---|---|---|
| solver.py:38-39 | A successful branch returns the depth-one copy `sudoku_board_copy`, not the board the deeper recursion solved | A board with no constraints and two empty cells, each with the single candidate 1 (`Solver.Gaps(0)`): the returned board still has one empty cell. `Solver.AsWrittenReturnsUnsolvedCopy` shows the same for every well-formed board with at least two empty cells on which the search succeeds | Return the board the recursive call returned | not executed | `Solver.TwoGapsShowsCopyReturned` | `Solver.RecursiveSolve` |
| solver.py:22-23 | A full board that is not solved makes `find_least_num_possible_cell` return None, and `.possible_values` then raises | The empty board with every cell set to 1 (`Solver.EmptyBoardOnesRaise`) | Report failure (return None) for a full unsolved board | not executed | `Solver.EmptyBoardOnesRaise` | `Solver.RecursiveSolve` |
| Constraints.py:143-175 | The dot type is compared with the strings 'white' and 'black', but every caller passes a `KropkiTypeEnum` member (enums.py:11-13), which equals neither. Verification returns None and propagation does nothing | Any board carrying a Kropki dot | Branch on the dot's kind, white or black | not executed | `Constraints.EnumTagsMatchNoBranch` | `Constraints.DotVerifyFilled` |

=== FILE: collections.dfy ===
/** Small facts about sequences and sets of integers that the Sudoku model
    needs: the set of a list's elements, duplicate-freedom, list sums, and
    the ascending enumeration of a set of digits. */
module Collections {

  /** An optional value; `None` plays the part of Python's `None`. */
  datatype Option<+T> = None | Some(value: T)

  /** The elements of a list, as a set (Python's `set(xs)`). */
  function Elems(s: seq<int>): (r: set<int>)
    ensures forall x :: x in r <==> x in s
  {
    set x | x in s
  }

  /** No value occurs twice in `s`. */
  predicate Distinct(s: seq<int>)
  {
    forall i, j :: 0 <= i < j < |s| ==> s[i] != s[j]
  }

  /** Strictly ascending order. */
  predicate Increasing(s: seq<int>)
  {
    forall i, j :: 0 <= i < j < |s| ==> s[i] < s[j]
  }

  /** The sum of a list (Python's `sum(xs)`). */
  function Sum(s: seq<int>): int
  {
    if s == [] then 0 else s[0] + Sum(s[1..])
  }

  /** Python's `len(xs) == len(set(xs))` is exactly duplicate-freedom. */
  lemma {:induction false} DistinctIffSameSize(s: seq<int>)
    ensures |Elems(s)| <= |s|
    ensures Distinct(s) <==> |Elems(s)| == |s|
  {
    if s != [] {
      var t := s[..|s| - 1];
      var x := s[|s| - 1];
      DistinctIffSameSize(t);
      assert s == t + [x];
      assert Elems(s) == Elems(t) + {x};
      if x in t {
        RepeatedLast(t, x);
        assert Elems(s) == Elems(t);
      } else {
        FreshLast(t, x);
      }
    }
  }

  /** Appending a value already present creates a duplicate. */
  lemma RepeatedLast(t: seq<int>, x: int)
    requires x in t
    ensures !Distinct(t + [x])
  {
    var i :| 0 <= i < |t| && t[i] == x;
    assert (t + [x])[i] == (t + [x])[|t|];
  }

  /** Appending a fresh value keeps a list duplicate-free, and only then. */
  lemma FreshLast(t: seq<int>, x: int)
    requires x !in t
    ensures Distinct(t + [x]) <==> Distinct(t)
  {
    var s := t + [x];
    if Distinct(t) {
      forall i, j | 0 <= i < j < |s| ensures s[i] != s[j] {
        assert s[i] == t[i];
        if j < |t| {
          assert s[j] == t[j];
        }
      }
    }
    if Distinct(s) {
      forall i, j | 0 <= i < j < |t| ensures t[i] != t[j] {
        assert s[i] == t[i] && s[j] == t[j];
      }
    }
  }

  /** The Sudoku digits 1..9. */
  const Digits: set<int> := {1, 2, 3, 4, 5, 6, 7, 8, 9}

  lemma DigitsRange(x: int)
    ensures x in Digits <==> 1 <= x <= 9
  {
  }

  /** The digits from `lo` up to 9 that lie in `s`, in ascending order. */
  function DigitsFrom(s: set<int>, lo: int): (r: seq<int>)
    requires 1 <= lo <= 10
    ensures Increasing(r)
    ensures forall x :: x in r <==> x in s && lo <= x <= 9
    decreases 10 - lo
  {
    if lo == 10 then []
    else
      var rest := DigitsFrom(s, lo + 1);
      assert forall i :: 0 <= i < |rest| ==> lo < rest[i] by {
        forall i | 0 <= i < |rest| ensures lo < rest[i] {
          assert rest[i] in rest;
        }
      }
      (if lo in s then [lo] else []) + rest
  }

  /** The elements of a set of digits in ascending order. This fixes the
      order in which a cell's candidates are tried. */
  function Ascending(s: set<int>): (r: seq<int>)
    requires s <= Digits
    ensures Increasing(r)
    ensures Elems(r) == s
    ensures |r| == |s|
  {
    var r := DigitsFrom(s, 1);
    assert Elems(r) == s by {
      forall x ensures x in r <==> x in s {
        DigitsRange(x);
      }
    }
    DistinctIffSameSize(r);
    r
  }

  /** An ascending list is determined by its set of elements. */
  lemma {:induction false} IncreasingUnique(a: seq<int>, b: seq<int>)
    requires Increasing(a) && Increasing(b)
    requires Elems(a) == Elems(b)
    ensures a == b
    decreases |a|
  {
    DistinctIffSameSize(a);
    DistinctIffSameSize(b);
    assert |a| == |b|;
    if a != [] {
      SameHead(a, b);
      SameTail(a, b);
      IncreasingUnique(a[1..], b[1..]);
      assert a == [a[0]] + a[1..] && b == [b[0]] + b[1..];
    }
  }

  /** Two ascending lists with the same elements start alike: both start
      with the least element. */
  lemma SameHead(a: seq<int>, b: seq<int>)
    requires Increasing(a) && Increasing(b) && a != []
    requires Elems(a) == Elems(b)
    ensures b != [] && a[0] == b[0]
  {
    assert a[0] in Elems(b);
    var i :| 0 <= i < |b| && b[i] == a[0];
    assert b[0] in Elems(a);
    var j :| 0 <= j < |a| && a[j] == b[0];
    assert b[0] <= b[i] && a[0] <= a[j];
  }

  /** ... and removing that common head leaves the same elements. */
  lemma SameTail(a: seq<int>, b: seq<int>)
    requires Increasing(a) && Increasing(b) && a != [] && b != []
    requires Elems(a) == Elems(b) && a[0] == b[0]
    ensures Elems(a[1..]) == Elems(b[1..])
  {
    forall x ensures x in a[1..] ==> x in b[1..] {
      if x in a[1..] {
        var i :| 1 <= i < |a| && a[i] == x;
        assert x in Elems(b) && x != b[0];
        var j :| 0 <= j < |b| && b[j] == x;
        assert b[1..][j - 1] == x;
      }
    }
    forall x ensures x in b[1..] ==> x in a[1..] {
      if x in b[1..] {
        var j :| 1 <= j < |b| && b[j] == x;
        assert x in Elems(a) && x != a[0];
        var i :| 0 <= i < |a| && a[i] == x;
        assert a[1..][i - 1] == x;
      }
    }
  }

  /** The sum of a set of digits: the sum of its ascending enumeration. */
  function SetSum(s: set<int>): int
    requires s <= Digits
  {
    Sum(Ascending(s))
  }
}

=== FILE: constraints.dfy ===
/** The constraint family. Every constraint names the cells it affects (as
    positions in the board's cell list) and offers two operations: `Verify`,
    which says whether the currently placed values break the rule (empty cells
    are non-committal), and `Propagate`, which removes candidates that the
    placed values rule out. */
module Constraints {
  import opened Collections
  import opened SudokuCell

  /** Row, column and box constraints behave identically; the kind only
      records which of the three a group is. */
  datatype GroupKind = Row | Column | Box

  /** A white dot joins consecutive digits, a black dot joins a digit and its double. */
  datatype DotKind = White | Black

  datatype Constraint =
    | Group(kind: GroupKind, cells: seq<nat>)
    | Cage(cells: seq<nat>, target: int, sums: seq<set<int>>)
    | Dot(dot: DotKind, first: nat, second: nat)

  /** The affected cells, in the order the constraint lists them. */
  function Members(c: Constraint): seq<nat>
  {
    match c
    case Group(_, cells) => cells
    case Cage(cells, _, _) => cells
    case Dot(_, p, q) => [p, q]
  }

  /** Every listed position is a cell of a board with `n` cells. */
  predicate Within(idx: seq<nat>, n: nat)
  {
    forall i :: 0 <= i < |idx| ==> idx[i] < n
  }

  predicate Fits(c: Constraint, n: nat)
  {
    match c
    case Dot(_, p, q) => p < n && q < n
    case _ => Within(c.cells, n)
  }

  // ---------------------------------------------------------------------
  // Values placed in a list of cells
  // ---------------------------------------------------------------------

  /** The non-zero values of the listed cells, in list order (the source's
      `nums_seen`). */
  function Placed(b: seq<Cell>, idx: seq<nat>): (r: seq<int>)
    requires Within(idx, |b|)
    ensures |r| <= |idx|
  {
    if idx == [] then []
    else (if b[idx[0]].value != 0 then [b[idx[0]].value] else []) + Placed(b, idx[1..])
  }

  /** Some listed cell holds the non-zero value `x`. */
  predicate Holds(b: seq<Cell>, idx: seq<nat>, x: int)
    requires Within(idx, |b|)
  {
    x != 0 && exists i :: 0 <= i < |idx| && b[idx[i]].value == x
  }

  /** Every listed cell is assigned. */
  predicate AllFilled(b: seq<Cell>, idx: seq<nat>)
    requires Within(idx, |b|)
  {
    forall i :: 0 <= i < |idx| ==> b[idx[i]].value != 0
  }

  /** No two listed cells hold the same non-zero value. */
  predicate NoClash(b: seq<Cell>, idx: seq<nat>)
    requires Within(idx, |b|)
  {
    forall i, j :: 0 <= i < j < |idx| && b[idx[i]].value != 0 ==> b[idx[i]].value != b[idx[j]].value
  }

  lemma {:induction false} PlacedHolds(b: seq<Cell>, idx: seq<nat>, x: int)
    requires Within(idx, |b|)
    ensures x in Placed(b, idx) <==> Holds(b, idx, x)
    decreases |idx|
  {
    if idx != [] {
      var t := idx[1..];
      PlacedHolds(b, t, x);
      if Holds(b, t, x) {
        var i :| 0 <= i < |t| && b[t[i]].value == x;
        assert b[idx[i + 1]].value == x;
      }
      if Holds(b, idx, x) {
        var i :| 0 <= i < |idx| && b[idx[i]].value == x;
        if i > 0 {
          assert b[t[i - 1]].value == x;
        }
      }
    }
  }

  /** The placed values fill the list exactly when every cell is assigned. */
  lemma {:induction false} PlacedFull(b: seq<Cell>, idx: seq<nat>)
    requires Within(idx, |b|)
    ensures |Placed(b, idx)| == |idx| <==> AllFilled(b, idx)
    decreases |idx|
  {
    if idx != [] {
      PlacedFull(b, idx[1..]);
      if AllFilled(b, idx) {
        assert AllFilled(b, idx[1..]) by {
          forall i | 0 <= i < |idx[1..]| ensures b[idx[1..][i]].value != 0 {
            assert idx[1..][i] == idx[i + 1];
          }
        }
      }
      if |Placed(b, idx)| == |idx| {
        forall i | 0 <= i < |idx| ensures b[idx[i]].value != 0 {
          if i > 0 {
            assert idx[i] == idx[1..][i - 1];
          }
        }
      }
    }
  }

  lemma DistinctCons(v: int, s: seq<int>)
    ensures Distinct([v] + s) <==> v !in s && Distinct(s)
  {
    var w := [v] + s;
    if Distinct(w) {
      forall i, j | 0 <= i < j < |s| ensures s[i] != s[j] {
        assert w[i + 1] == s[i] && w[j + 1] == s[j];
      }
      forall k | 0 <= k < |s| ensures s[k] != v {
        assert w[0] == v && w[k + 1] == s[k];
      }
      assert Distinct(s);
    }
    if v !in s && Distinct(s) {
      forall i, j | 0 <= i < j < |w| ensures w[i] != w[j] {
        assert w[j] == s[j - 1];
        if i > 0 {
          assert w[i] == s[i - 1];
        } else {
          assert s[j - 1] in s;
        }
      }
      assert Distinct(w);
    }
  }

  /** A clash-free list stays clash-free without its head, and no later
      cell repeats the head's value. */
  lemma NoClashTail(b: seq<Cell>, idx: seq<nat>)
    requires Within(idx, |b|) && idx != []
    requires NoClash(b, idx)
    ensures NoClash(b, idx[1..])
    ensures b[idx[0]].value != 0 ==> !Holds(b, idx[1..], b[idx[0]].value)
  {
    var t := idx[1..];
    forall i, j | 0 <= i < j < |t| && b[t[i]].value != 0 ensures b[t[i]].value != b[t[j]].value {
      assert t[i] == idx[i + 1] && t[j] == idx[j + 1];
    }
    forall j | 0 <= j < |t| && b[idx[0]].value != 0 ensures b[t[j]].value != b[idx[0]].value {
      assert t[j] == idx[j + 1];
    }
  }

  /** Conversely, a clash-free tail whose cells avoid the head's value makes
      the whole list clash-free. */
  lemma NoClashCons(b: seq<Cell>, idx: seq<nat>)
    requires Within(idx, |b|) && idx != []
    requires NoClash(b, idx[1..])
    requires b[idx[0]].value != 0 ==> !Holds(b, idx[1..], b[idx[0]].value)
    ensures NoClash(b, idx)
  {
    var t := idx[1..];
    forall i, j | 0 <= i < j < |idx| && b[idx[i]].value != 0 ensures b[idx[i]].value != b[idx[j]].value {
      assert idx[j] == t[j - 1];
      if i > 0 {
        assert idx[i] == t[i - 1];
      }
    }
  }

  /** The placed values are duplicate-free exactly when no two listed cells clash. */
  lemma {:induction false} PlacedDistinct(b: seq<Cell>, idx: seq<nat>)
    requires Within(idx, |b|)
    ensures Distinct(Placed(b, idx)) <==> NoClash(b, idx)
    decreases |idx|
  {
    if idx != [] {
      var t := idx[1..];
      var v := b[idx[0]].value;
      PlacedDistinct(b, t);
      if NoClash(b, idx) {
        NoClashTail(b, idx);
      }
      if NoClash(b, t) && (v != 0 ==> !Holds(b, t, v)) {
        NoClashCons(b, idx);
      }
      if v != 0 {
        PlacedHolds(b, t, v);
        DistinctCons(v, Placed(b, t));
      } else {
        assert Placed(b, idx) == Placed(b, t);
      }
    }
  }

  // ---------------------------------------------------------------------
  // Row, column and box constraints
  // ---------------------------------------------------------------------

  /** The group holds no repeated digit: `len(nums_seen) == len(set(nums_seen))`. */
  function VerifyGroup(b: seq<Cell>, idx: seq<nat>): bool
    requires Within(idx, |b|)
  {
    var seen := Placed(b, idx);
    |seen| == |Elems(seen)|
  }

  /** Group verification holds exactly when no two cells of the group hold the
      same non-zero value. */
  lemma GroupVerifyIff(b: seq<Cell>, idx: seq<nat>)
    requires Within(idx, |b|)
    ensures VerifyGroup(b, idx) <==> NoClash(b, idx)
  {
    DistinctIffSameSize(Placed(b, idx));
    PlacedDistinct(b, idx);
  }

  /** Every empty listed cell loses the values placed in the list (shared by
      groups and cages). */
  function RemovePlaced(b: seq<Cell>, idx: seq<nat>): (r: seq<Cell>)
    requires Within(idx, |b|)
    ensures |r| == |b|
    ensures forall p :: 0 <= p < |b| ==> Narrows(b[p], r[p])
    ensures forall p :: 0 <= p < |b| && p !in idx ==> r[p] == b[p]
  {
    var seen := Elems(Placed(b, idx));
    seq(|b|, p requires 0 <= p < |b| =>
      if p in idx && b[p].value == 0 then b[p].(domain := b[p].domain - seen) else b[p])
  }

  /** After removing placed values, an empty listed cell keeps exactly the
      candidates that no cell of the list holds; assigned cells are untouched. */
  lemma RemovePlacedExact(b: seq<Cell>, idx: seq<nat>, i: nat, d: int)
    requires Within(idx, |b|)
    requires i < |idx|
    ensures b[idx[i]].value == 0 ==>
              (d in RemovePlaced(b, idx)[idx[i]].domain <==> d in b[idx[i]].domain && !Holds(b, idx, d))
    ensures b[idx[i]].value != 0 ==> RemovePlaced(b, idx)[idx[i]] == b[idx[i]]
  {
    PlacedHolds(b, idx, d);
  }

  /** After a group propagates, no empty cell of the group still has a
      candidate equal to a value placed in the group. */
  lemma RemovePlacedClears(b: seq<Cell>, idx: seq<nat>, i: nat, j: nat)
    requires Within(idx, |b|)
    requires i < |idx| && j < |idx|
    requires b[idx[i]].value == 0 && b[idx[j]].value != 0
    ensures b[idx[j]].value !in RemovePlaced(b, idx)[idx[i]].domain
  {
    RemovePlacedExact(b, idx, i, b[idx[j]].value);
  }

  // ---------------------------------------------------------------------
  // Killer cage
  // ---------------------------------------------------------------------

  /** `c` is a strictly increasing list of `k` values drawn from lo..9: one of
      the tuples `itertools.combinations(range(lo, 10), k)` produces. */
  predicate IsCombination(c: seq<int>, lo: int, k: nat)
  {
    |c| == k && Increasing(c) && forall i :: 0 <= i < |c| ==> lo <= c[i] <= 9
  }

  /** Puts `v` in front of every list in `cs`. */
  function Prefixed(v: int, cs: seq<seq<int>>): (r: seq<seq<int>>)
    decreases |cs|
  {
    if cs == [] then [] else [[v] + cs[0]] + Prefixed(v, cs[1..])
  }

  /** The `k`-element combinations of lo..9 in lexicographic order, the order
      in which `itertools.combinations` yields them. */
  function Combinations(lo: int, k: nat): seq<seq<int>>
    requires 1 <= lo <= 10
    decreases 10 - lo
  {
    if k == 0 then [[]]
    else if lo == 10 then []
    else Prefixed(lo, Combinations(lo + 1, k - 1)) + Combinations(lo + 1, k)
  }

  /** One step of the enumeration: the combinations that start with `lo`,
      then those that do not. */
  lemma CombinationsStep(lo: int, k: nat)
    requires 1 <= lo <= 9 && k > 0
    ensures Combinations(lo, k) == Prefixed(lo, Combinations(lo + 1, k - 1)) + Combinations(lo + 1, k)
  {
  }

  /** A list in `Prefixed(v, cs)` is `v` followed by a list of `cs`. */
  lemma {:induction false} PrefixedMember(v: int, cs: seq<seq<int>>, c: seq<int>)
    requires c in Prefixed(v, cs)
    ensures c != [] && c[0] == v && c[1..] in cs
    decreases |cs|
  {
    assert cs != [];
    if c != [v] + cs[0] {
      PrefixedMember(v, cs[1..], c);
      assert c[1..] in cs[1..];
    } else {
      assert c[1..] == cs[0];
    }
  }

  /** `v` followed by a list of `cs` is in `Prefixed(v, cs)`. */
  lemma {:induction false} PrefixedHas(v: int, cs: seq<seq<int>>, t: seq<int>)
    requires t in cs
    ensures [v] + t in Prefixed(v, cs)
    decreases |cs|
  {
    if t != cs[0] {
      assert t in cs[1..];
      PrefixedHas(v, cs[1..], t);
    }
  }

  /** Everything the enumeration lists is a combination. */
  lemma {:induction false} CombinationsSound(lo: int, k: nat, c: seq<int>)
    requires 1 <= lo <= 10
    requires c in Combinations(lo, k)
    ensures IsCombination(c, lo, k)
    decreases 10 - lo, 1
  {
    if k == 0 {
      assert Combinations(lo, k) == [[]];
      assert c == [];
    } else if lo < 10 {
      CombinationsStep(lo, k);
      var with := Prefixed(lo, Combinations(lo + 1, k - 1));
      assert c in with + Combinations(lo + 1, k);
      if c in with {
        PrefixedMember(lo, Combinations(lo + 1, k - 1), c);
        SoundWith(lo, k, c);
      } else {
        SoundWithout(lo, k, c);
      }
    }
  }

  /** A list made of `lo` and a listed combination of (lo+1)..9 is a
      combination. */
  lemma {:induction false} SoundWith(lo: int, k: nat, c: seq<int>)
    requires 1 <= lo <= 9 && k > 0
    requires c != [] && c[0] == lo && c[1..] in Combinations(lo + 1, k - 1)
    ensures IsCombination(c, lo, k)
    decreases 10 - lo, 0
  {
    CombinationsSound(lo + 1, k - 1, c[1..]);
    PrependCombination(lo, k - 1, c);
  }

  /** The listed combinations that skip `lo` are combinations. */
  lemma {:induction false} SoundWithout(lo: int, k: nat, c: seq<int>)
    requires 1 <= lo <= 9
    requires c in Combinations(lo + 1, k)
    ensures IsCombination(c, lo, k)
    decreases 10 - lo, 0
  {
    CombinationsSound(lo + 1, k, c);
    WidenCombination(lo, k, c);
  }

  /** A combination of (lo+1)..9 is also one of lo..9. */
  lemma WidenCombination(lo: int, k: nat, c: seq<int>)
    requires IsCombination(c, lo + 1, k)
    ensures IsCombination(c, lo, k)
  {
  }

  /** A list that starts with `lo` and continues with a combination of
      (lo+1)..9 is a combination of lo..9. */
  lemma PrependCombination(lo: int, k: nat, c: seq<int>)
    requires lo <= 9 && c != [] && c[0] == lo
    requires IsCombination(c[1..], lo + 1, k)
    ensures IsCombination(c, lo, k + 1)
  {
    var t := c[1..];
    forall i | 0 <= i < |c| ensures lo <= c[i] <= 9 {
      if i > 0 {
        assert c[i] == t[i - 1];
      }
    }
    forall i, j | 0 <= i < j < |c| ensures c[i] < c[j] {
      assert c[j] == t[j - 1];
      if i > 0 {
        assert c[i] == t[i - 1];
      }
    }
  }

  /** Every combination is listed by the enumeration. */
  lemma {:induction false} CombinationsComplete(lo: int, k: nat, c: seq<int>)
    requires 1 <= lo <= 10
    requires IsCombination(c, lo, k)
    ensures c in Combinations(lo, k)
    decreases 10 - lo, 1
  {
    if k == 0 {
      assert c == [];
      assert Combinations(lo, k) == [[]];
    } else {
      assert lo <= c[0] <= 9;
      var with := Prefixed(lo, Combinations(lo + 1, k - 1));
      var without := Combinations(lo + 1, k);
      CombinationsStep(lo, k);
      if c[0] == lo {
        CompleteWith(lo, k, c);
      } else {
        CompleteWithout(lo, k, c);
      }
      assert c in with + without;
    }
  }

  /** A combination starting with `lo` is among those the first half lists. */
  lemma {:induction false} CompleteWith(lo: int, k: nat, c: seq<int>)
    requires 1 <= lo <= 9 && k > 0
    requires IsCombination(c, lo, k) && c[0] == lo
    ensures c in Prefixed(lo, Combinations(lo + 1, k - 1))
    decreases 10 - lo, 0
  {
    var t := c[1..];
    TailCombination(lo, k, c);
    CombinationsComplete(lo + 1, k - 1, t);
    PrefixedHas(lo, Combinations(lo + 1, k - 1), t);
    assert c == [lo] + t;
  }

  /** A combination not starting with `lo` is among those the second half lists. */
  lemma {:induction false} CompleteWithout(lo: int, k: nat, c: seq<int>)
    requires 1 <= lo <= 9 && k > 0
    requires IsCombination(c, lo, k) && c[0] != lo
    ensures c in Combinations(lo + 1, k)
    decreases 10 - lo, 0
  {
    NarrowCombination(lo, k, c);
    CombinationsComplete(lo + 1, k, c);
  }

  /** The tail of a combination of lo..9 that starts with `lo` is a
      combination of (lo+1)..9. */
  lemma TailCombination(lo: int, k: nat, c: seq<int>)
    requires k > 0 && IsCombination(c, lo, k) && c[0] == lo
    ensures IsCombination(c[1..], lo + 1, k - 1)
  {
    var t := c[1..];
    forall i | 0 <= i < |t| ensures lo + 1 <= t[i] <= 9 {
      assert t[i] == c[i + 1];
    }
  }

  /** A combination of lo..9 that does not start with `lo` is a combination
      of (lo+1)..9. */
  lemma NarrowCombination(lo: int, k: nat, c: seq<int>)
    requires k > 0 && IsCombination(c, lo, k) && c[0] != lo
    ensures IsCombination(c, lo + 1, k)
  {
    forall i | 0 <= i < |c| ensures lo + 1 <= c[i] {
      if i > 0 {
        assert c[0] < c[i];
      }
    }
  }

  /** The element sets of the listed combinations whose sum is `target`. */
  function SumsOf(cs: seq<seq<int>>, target: int): (r: seq<set<int>>)
    ensures forall s :: s in r <==> exists i :: 0 <= i < |cs| && Sum(cs[i]) == target && Elems(cs[i]) == s
  {
    if cs == [] then []
    else
      var rest := SumsOf(cs[1..], target);
      assert forall s :: s in rest <==> exists i :: 1 <= i < |cs| && Sum(cs[i]) == target && Elems(cs[i]) == s by {
        forall s ensures s in rest <==> exists i :: 1 <= i < |cs| && Sum(cs[i]) == target && Elems(cs[i]) == s {
          if s in rest {
            var i :| 0 <= i < |cs[1..]| && Sum(cs[1..][i]) == target && Elems(cs[1..][i]) == s;
            assert cs[i + 1] == cs[1..][i];
          }
          if exists i :: 1 <= i < |cs| && Sum(cs[i]) == target && Elems(cs[i]) == s {
            var i :| 1 <= i < |cs| && Sum(cs[i]) == target && Elems(cs[i]) == s;
            assert cs[1..][i - 1] == cs[i];
          }
        }
      }
      (if Sum(cs[0]) == target then [Elems(cs[0])] else []) + rest
  }

  /** The cage's table of possible digit sets (`find_possible_sums`). */
  function PossibleSums(target: int, k: nat): seq<set<int>>
  {
    SumsOf(Combinations(1, k), target)
  }

  /** `s` is a `k`-element set of digits whose sum is `target`. */
  predicate IsDigitCombination(s: set<int>, k: nat, target: int)
  {
    s <= Digits && |s| == k && SetSum(s) == target
  }

  /** The table holds exactly the `k`-element subsets of 1..9 that sum to the target. */
  lemma PossibleSumsExact(target: int, k: nat, s: set<int>)
    ensures s in PossibleSums(target, k) <==> IsDigitCombination(s, k, target)
  {
    var cs := Combinations(1, k);
    if s in PossibleSums(target, k) {
      var i :| 0 <= i < |cs| && Sum(cs[i]) == target && Elems(cs[i]) == s;
      var c := cs[i];
      CombinationsSound(1, k, c);
      assert s <= Digits by {
        forall x | x in s ensures x in Digits {
          var j :| 0 <= j < |c| && c[j] == x;
          DigitsRange(x);
        }
      }
      DistinctIffSameSize(c);
      IncreasingUnique(Ascending(s), c);
    }
    if IsDigitCombination(s, k, target) {
      var c := Ascending(s);
      assert IsCombination(c, 1, k) by {
        forall i | 0 <= i < |c| ensures 1 <= c[i] <= 9 {
          assert c[i] in Elems(c);
          DigitsRange(c[i]);
        }
      }
      CombinationsComplete(1, k, c);
      var i :| 0 <= i < |cs| && cs[i] == c;
      assert Sum(cs[i]) == target && Elems(cs[i]) == s;
    }
  }

  /** A cage over the listed cells, with its combination table precomputed. */
  function NewCage(idx: seq<nat>, target: int): (r: Constraint)
    ensures r.Cage? && r.cells == idx && r.target == target
    ensures forall s :: s in r.sums <==> IsDigitCombination(s, |idx|, target)
  {
    var sums := PossibleSums(target, |idx|);
    assert forall s :: s in sums <==> IsDigitCombination(s, |idx|, target) by {
      forall s ensures s in sums <==> IsDigitCombination(s, |idx|, target) {
        PossibleSumsExact(target, |idx|, s);
      }
    }
    Cage(idx, target, sums)
  }

  /** Cage verification, with the source's four checks in the source's order. */
  function VerifyCage(b: seq<Cell>, idx: seq<nat>, target: int, sums: seq<set<int>>): bool
    requires Within(idx, |b|)
  {
    var seen := Placed(b, idx);
    if |seen| != |Elems(seen)| then false
    else if |seen| == |idx| && Sum(seen) != target then false
    else if |seen| != |idx| && Sum(seen) >= target then false
    else exists i :: 0 <= i < |sums| && Elems(seen) <= sums[i]
  }

  /** A constructed cage verifies exactly when: no digit repeats; a full cage
      sums to the target; a partial cage sums to less than the target; and the
      placed digits lie inside some set of as many digits as the cage has cells
      that sums to the target. */
  lemma CageVerifyIff(b: seq<Cell>, idx: seq<nat>, target: int)
    requires Within(idx, |b|)
    ensures Verify(b, NewCage(idx, target)) <==>
              && NoClash(b, idx)
              && (AllFilled(b, idx) ==> Sum(Placed(b, idx)) == target)
              && (!AllFilled(b, idx) ==> Sum(Placed(b, idx)) < target)
              && exists s :: IsDigitCombination(s, |idx|, target) && Elems(Placed(b, idx)) <= s
  {
    var cage := NewCage(idx, target);
    var seen := Placed(b, idx);
    var sums := cage.sums;
    assert Verify(b, cage) == VerifyCage(b, idx, target, sums);
    DistinctIffSameSize(seen);
    PlacedDistinct(b, idx);
    PlacedFull(b, idx);
    assert (exists i :: 0 <= i < |sums| && Elems(seen) <= sums[i]) <==>
           (exists s :: IsDigitCombination(s, |idx|, target) && Elems(seen) <= s) by {
      if exists i :: 0 <= i < |sums| && Elems(seen) <= sums[i] {
        var i :| 0 <= i < |sums| && Elems(seen) <= sums[i];
        assert sums[i] in sums;
      }
      if exists s :: IsDigitCombination(s, |idx|, target) && Elems(seen) <= s {
        var s :| IsDigitCombination(s, |idx|, target) && Elems(seen) <= s;
        assert s in sums;
        var i :| 0 <= i < |sums| && sums[i] == s;
      }
    }
  }

  /** Two cells summing to 17 can only hold 8 and 9.
      The size is a parameter rather than a literal so that the verifier
      does not unfold the whole table expression eagerly. */
  lemma PossibleSumsSeventeen(s: set<int>, k: nat)
    requires k == 2
    ensures s in PossibleSums(17, k) <==> s == {8, 9}
  {
    PossibleSumsExact(17, k, s);
    if IsDigitCombination(s, k, 17) {
      TwoDigitsSeventeen(s);
    }
    if s == {8, 9} {
      EightNineSeventeen(s);
    }
  }

  lemma EightNineSeventeen(s: set<int>)
    requires s == {8, 9}
    ensures IsDigitCombination(s, 2, 17)
  {
    var c := [8, 9];
    assert Increasing(c);
    assert Elems(c) == s;
    assert s <= Digits;
    var a := Ascending(s);
    IncreasingUnique(a, c);
    assert Sum(c) == 17 by {
      assert c[1..] == [9];
      assert Sum([9]) == 9 + Sum([9][1..]);
      assert [9][1..] == [];
    }
  }

  lemma TwoDigitsSeventeen(s: set<int>)
    requires IsDigitCombination(s, 2, 17)
    ensures s == {8, 9}
  {
    var c := Ascending(s);
    assert c[0] in Elems(c) && c[1] in Elems(c);
    PairSeventeen(c);
    assert Elems([8, 9]) == {8, 9};
  }

  /** Two ascending digits summing to 17 are 8 and 9. */
  lemma PairSeventeen(c: seq<int>)
    requires |c| == 2 && Increasing(c) && c[0] in Digits && c[1] in Digits
    requires Sum(c) == 17
    ensures c == [8, 9]
  {
    assert Sum(c) == c[0] + c[1] by {
      assert c[1..] == [c[1]];
      assert Sum([c[1]]) == c[1] + Sum([c[1]][1..]);
      assert [c[1]][1..] == [];
    }
    assert c == [c[0], c[1]];
  }

  /** A two-cell cage with target 17 accepts 8 and 9. */
  lemma CageSeventeenAccepts(b: seq<Cell>, idx: seq<nat>)
    requires Within(idx, |b|) && |idx| == 2
    requires b[idx[0]].value == 8 && b[idx[1]].value == 9
    ensures VerifyCage(b, idx, 17, PossibleSums(17, |idx|))
  {
    var seen := Placed(b, idx);
    PlacedPair(b, idx);
    assert seen == [8, 9];
    SumSingle(9);
    assert Sum(seen) == 17 by {
      assert seen[1..] == [9];
    }
    assert Elems(seen) == {8, 9};
    assert |Elems(seen)| == 2;
    PossibleSumsSeventeen({8, 9}, |idx|);
  }

  /** A two-cell cage with target 17 rejects a 7 even while the other cell is
      still empty: 7 lies in no combination. */
  lemma CageSeventeenRejectsSeven(b: seq<Cell>, idx: seq<nat>)
    requires Within(idx, |b|) && |idx| == 2
    requires b[idx[0]].value == 7 && b[idx[1]].value == 0
    ensures !VerifyCage(b, idx, 17, PossibleSums(17, |idx|))
  {
    PlacedPair(b, idx);
    SumSingle(7);
    assert Elems([7]) == {7};
    NoSeventeenWithSeven(|idx|);
  }

  /** The placed values of a two-cell list. */
  lemma PlacedPair(b: seq<Cell>, idx: seq<nat>)
    requires Within(idx, |b|) && |idx| == 2
    ensures Placed(b, idx) == (if b[idx[0]].value != 0 then [b[idx[0]].value] else [])
                              + (if b[idx[1]].value != 0 then [b[idx[1]].value] else [])
  {
    assert idx[1..][1..] == [];
    assert idx[1..][0] == idx[1];
  }

  lemma SumSingle(x: int)
    ensures Sum([x]) == x
  {
    assert [x][1..] == [];
  }

  /** No entry of the two-cell table for 17 holds a 7.
      The size is a parameter rather than a literal so that the verifier
      does not unfold the whole table expression eagerly. */
  lemma NoSeventeenWithSeven(k: nat)
    requires k == 2
    ensures forall i :: 0 <= i < |PossibleSums(17, k)| ==> 7 !in PossibleSums(17, k)[i]
  {
    var sums := PossibleSums(17, k);
    forall i | 0 <= i < |sums| ensures 7 !in sums[i] {
      PossibleSumsSeventeen(sums[i], k);
    }
  }

  // ---------------------------------------------------------------------
  // Kropki dots
  // ---------------------------------------------------------------------

  /** The relation a dot demands of the two digits it joins. */
  predicate Related(kind: DotKind, v: int, w: int)
  {
    match kind
    case White => v == w + 1 || w == v + 1
    case Black => v == 2 * w || w == 2 * v
  }

  /** The digits a black dot rules out on either side. */
  const BlackExcluded: set<int> := {5, 7, 9}

  function Abs(x: int): int
  {
    if x < 0 then -x else x
  }

  /** Dot verification, with the source's checks in the source's order: a
      black dot rejects 5, 7 and 9 before it looks at empty cells. */
  function VerifyDot(b: seq<Cell>, kind: DotKind, p: nat, q: nat): bool
    requires p < |b| && q < |b|
  {
    var a := b[p].value;
    var c := b[q].value;
    match kind
    case White =>
      if a == 0 || c == 0 then true else Abs(a - c) == 1
    case Black =>
      if a in BlackExcluded || c in BlackExcluded then false
      else if a == 0 || c == 0 then true
      else a == 2 * c || c == 2 * a
  }

  /** Once both cells hold digits, a dot verifies exactly when the digits are
      related as the dot demands. */
  lemma DotVerifyFilled(b: seq<Cell>, kind: DotKind, p: nat, q: nat)
    requires p < |b| && q < |b|
    requires b[p].value in Digits && b[q].value in Digits
    ensures VerifyDot(b, kind, p, q) <==> Related(kind, b[p].value, b[q].value)
  {
    DigitsRange(b[p].value);
    DigitsRange(b[q].value);
  }

  /** Dot verification does not depend on which cell comes first. */
  lemma DotVerifySymmetric(b: seq<Cell>, kind: DotKind, p: nat, q: nat)
    requires p < |b| && q < |b|
    ensures VerifyDot(b, kind, p, q) <==> VerifyDot(b, kind, q, p)
  {
  }

  /** While a cell is empty, a white dot always verifies and a black dot
      verifies exactly when neither value is 5, 7 or 9. */
  lemma DotVerifyPending(b: seq<Cell>, kind: DotKind, p: nat, q: nat)
    requires p < |b| && q < |b|
    requires b[p].value == 0 || b[q].value == 0
    ensures VerifyDot(b, kind, p, q) <==>
              (kind == White || (b[p].value !in BlackExcluded && b[q].value !in BlackExcluded))
  {
  }

  /** A candidate `v` has a partner for the dot in `other`. */
  predicate Supported(kind: DotKind, v: int, other: set<int>)
  {
    match kind
    case White => v + 1 in other || v - 1 in other
    case Black => v * 2 in other || (v % 2 == 0 && v / 2 in other)
  }

  /** The values a dot allows next to an assigned value `a`. */
  function Partners(kind: DotKind, a: int): set<int>
  {
    match kind
    case White => {a - 1, a + 1}
    case Black => (if a % 2 == 0 then {a / 2} else {}) + {a * 2}
  }

  /** Dot propagation. With both cells empty each domain keeps the values
      that have a partner in the other cell's domain (both computed from the
      domains as they were); with one cell assigned the empty cell's domain is
      intersected with the assigned value's partners. */
  function PropagateDot(b: seq<Cell>, kind: DotKind, p: nat, q: nat): (r: seq<Cell>)
    requires p < |b| && q < |b|
    ensures |r| == |b|
    ensures forall x :: 0 <= x < |b| ==> Narrows(b[x], r[x])
    ensures forall x :: 0 <= x < |b| && x != p && x != q ==> r[x] == b[x]
  {
    var a := b[p].value;
    var c := b[q].value;
    var d1 := b[p].domain;
    var d2 := b[q].domain;
    if a == 0 && c == 0 then
      var n1 := set v | v in d1 && Supported(kind, v, d2);
      var n2 := set w | w in d2 && Supported(kind, w, d1);
      b[p := b[p].(domain := n1)][q := b[q].(domain := n2)]
    else if a == 0 then
      b[p := b[p].(domain := Partners(kind, c) * d1)]
    else if c == 0 then
      b[q := b[q].(domain := Partners(kind, a) * d2)]
    else
      b
  }

  lemma SupportedIff(kind: DotKind, v: int, other: set<int>)
    ensures Supported(kind, v, other) <==> exists w :: w in other && Related(kind, v, w)
  {
    if exists w :: w in other && Related(kind, v, w) {
      var w :| w in other && Related(kind, v, w);
      if kind == Black && v == 2 * w {
        assert v % 2 == 0 && v / 2 == w;
      }
    }
    if Supported(kind, v, other) {
      match kind
      case White =>
        if v + 1 in other {
          assert Related(kind, v, v + 1);
        } else {
          assert Related(kind, v, v - 1);
        }
      case Black =>
        if v * 2 in other {
          assert Related(kind, v, v * 2);
        } else {
          assert Related(kind, v, v / 2);
        }
    }
  }

  /** With both cells of a dot empty, a candidate survives propagation
      exactly when the other cell's former domain holds a partner for it. */
  lemma DotPropagateBothEmpty(b: seq<Cell>, kind: DotKind, p: nat, q: nat, v: int)
    requires p < |b| && q < |b| && p != q
    requires b[p].value == 0 && b[q].value == 0
    ensures v in PropagateDot(b, kind, p, q)[p].domain <==>
              v in b[p].domain && exists w :: w in b[q].domain && Related(kind, v, w)
    ensures v in PropagateDot(b, kind, p, q)[q].domain <==>
              v in b[q].domain && exists w :: w in b[p].domain && Related(kind, v, w)
  {
    SupportedIff(kind, v, b[q].domain);
    SupportedIff(kind, v, b[p].domain);
  }

  /** With one cell of a dot assigned, the empty cell keeps exactly its
      candidates that are related to the assigned value. */
  lemma DotPropagateOneAssigned(b: seq<Cell>, kind: DotKind, p: nat, q: nat, w: int)
    requires p < |b| && q < |b|
    requires (b[p].value == 0) != (b[q].value == 0)
    ensures b[p].value == 0 ==>
              (w in PropagateDot(b, kind, p, q)[p].domain <==> w in b[p].domain && Related(kind, w, b[q].value))
    ensures b[q].value == 0 ==>
              (w in PropagateDot(b, kind, p, q)[q].domain <==> w in b[q].domain && Related(kind, w, b[p].value))
  {
  }

  /** With one cell assigned a digit, propagation keeps exactly the
      candidates of the empty cell that verification would accept there:
      propagation and verification agree on digits. */
  lemma DotPropagateMatchesVerify(b: seq<Cell>, kind: DotKind, p: nat, q: nat, w: int)
    requires p < |b| && q < |b| && p != q
    requires b[p].value == 0 && b[q].value in Digits
    requires w in Digits
    ensures w in PropagateDot(b, kind, p, q)[p].domain <==>
              w in b[p].domain && VerifyDot(b[p := b[p].(value := w)], kind, p, q)
  {
    DotPropagateOneAssigned(b, kind, p, q, w);
    DotVerifyFilled(b[p := b[p].(value := w)], kind, p, q);
  }

  /** A black dot between two empty cells whose domains are digits removes
      5, 7 and 9 from both: none of them has a double or half among 1..9. */
  lemma BlackPropagateDropsExcluded(b: seq<Cell>, p: nat, q: nat)
    requires p < |b| && q < |b| && p != q
    requires b[p].value == 0 && b[q].value == 0
    requires b[p].domain <= Digits && b[q].domain <= Digits
    ensures PropagateDot(b, Black, p, q)[p].domain !! BlackExcluded
    ensures PropagateDot(b, Black, p, q)[q].domain !! BlackExcluded
  {
  }

  // ---------------------------------------------------------------------
  // The shared interface
  // ---------------------------------------------------------------------

  /** `verify_constraint`, dispatched on the variant. */
  function Verify(b: seq<Cell>, c: Constraint): bool
    requires Fits(c, |b|)
  {
    match c
    case Group(_, idx) => VerifyGroup(b, idx)
    case Cage(idx, target, sums) => VerifyCage(b, idx, target, sums)
    case Dot(kind, p, q) => VerifyDot(b, kind, p, q)
  }

  /** `propagate`, dispatched on the variant. Groups and cages only remove the
      placed values from their empty cells; the cage does not use its
      combination table here. */
  function Propagate(b: seq<Cell>, c: Constraint): (r: seq<Cell>)
    requires Fits(c, |b|)
    ensures |r| == |b|
    ensures forall x :: 0 <= x < |b| ==> Narrows(b[x], r[x])
    ensures forall x :: 0 <= x < |b| && x !in Members(c) ==> r[x] == b[x]
  {
    match c
    case Group(_, idx) => RemovePlaced(b, idx)
    case Cage(idx, _, _) => RemovePlaced(b, idx)
    case Dot(kind, p, q) => PropagateDot(b, kind, p, q)
  }

  /** Propagating a group or a cage removes every value placed in it from
      every empty member. */
  lemma PropagateClearsPlaced(b: seq<Cell>, c: Constraint, i: nat, j: nat)
    requires Fits(c, |b|)
    requires c.Group? || c.Cage?
    requires i < |c.cells| && j < |c.cells|
    requires b[c.cells[i]].value == 0 && b[c.cells[j]].value != 0
    ensures b[c.cells[j]].value !in Propagate(b, c)[c.cells[i]].domain
  {
    RemovePlacedClears(b, c.cells, i, j);
  }

  // ---------------------------------------------------------------------
  // The dot kind as the source spells it
  // ---------------------------------------------------------------------

  /** Stand-ins for the `KropkiTypeEnum` members the callers pass as the dot's
      type. An enum member never equals a string, so any tag other than
      "white" and "black" behaves the same. */
  const WhiteDotTag: string := "white_kropki_dot"
  const BlackDotTag: string := "black_kropki_dot"

  /** Dot verification as written: the type is compared with the strings
      "white" and "black"; when neither matches, the method falls off its end
      and returns None. */
  function VerifyDotTagged(b: seq<Cell>, tag: string, p: nat, q: nat): (r: Option<bool>)
    requires p < |b| && q < |b|
    ensures r.Some? <==> tag == "white" || tag == "black"
  {
    if tag == "white" then Some(VerifyDot(b, White, p, q))
    else if tag == "black" then Some(VerifyDot(b, Black, p, q))
    else None
  }

  /** Dot propagation as written: a tag matching neither string leaves every
      domain unchanged. */
  function PropagateDotTagged(b: seq<Cell>, tag: string, p: nat, q: nat): (r: seq<Cell>)
    requires p < |b| && q < |b|
    ensures |r| == |b|
    ensures forall x :: 0 <= x < |b| ==> Narrows(b[x], r[x])
    ensures forall x :: 0 <= x < |b| && x != p && x != q ==> r[x] == b[x]
  {
    if tag == "white" then PropagateDot(b, White, p, q)
    else if tag == "black" then PropagateDot(b, Black, p, q)
    else b
  }

  /** With the tags the callers actually pass, dot verification never yields a
      truth value and propagation never prunes, whatever the cells hold. */
  lemma EnumTagsMatchNoBranch(b: seq<Cell>, p: nat, q: nat)
    requires p < |b| && q < |b|
    ensures VerifyDotTagged(b, WhiteDotTag, p, q) == None
    ensures VerifyDotTagged(b, BlackDotTag, p, q) == None
    ensures PropagateDotTagged(b, WhiteDotTag, p, q) == b
    ensures PropagateDotTagged(b, BlackDotTag, p, q) == b
  {
    assert WhiteDotTag != "white" && WhiteDotTag != "black" by {
      assert WhiteDotTag[0] == 'w' && |WhiteDotTag| != |"white"|;
    }
    assert BlackDotTag != "white" && BlackDotTag != "black" by {
      assert BlackDotTag[0] == 'b' && |BlackDotTag| != |"black"|;
    }
  }

  /** With the intended tags, the as-written dispatch is the dot model above. */
  lemma PlainTagsAgree(b: seq<Cell>, p: nat, q: nat)
    requires p < |b| && q < |b|
    ensures VerifyDotTagged(b, "white", p, q) == Some(VerifyDot(b, White, p, q))
    ensures VerifyDotTagged(b, "black", p, q) == Some(VerifyDot(b, Black, p, q))
    ensures PropagateDotTagged(b, "white", p, q) == PropagateDot(b, White, p, q)
    ensures PropagateDotTagged(b, "black", p, q) == PropagateDot(b, Black, p, q)
  {
    assert "black" != "white" by {
      assert "black"[0] != "white"[0];
    }
  }
}

=== FILE: solver.dfy ===
/** The backtracking search (`recursive_solve`) and its entry point
    (`solve`). Callbacks become traces: the search returns the list of cell
    updates it reported, and `Solve` the list of states it announced. */
module Solver {
  import opened Collections
  import opened SudokuCell
  import opened Constraints
  import opened SudokuBoard

  /** The result of a search: the solved board, if any, and the updates
      reported along the way. */
  datatype Search = Search(board: Option<Board>, trace: seq<CellUpdate>)

  /** The states `solve` announces to the interface. */
  datatype GuiState = Solving | Solved | IncorrectSolve

  datatype SolveRun = SolveRun(states: seq<GuiState>, result: Option<Board>, trace: seq<CellUpdate>)

  /** The candidates of cell `p` in the order they are tried. */
  function Candidates(b: Board, p: nat): (r: seq<int>)
    requires WellFormed(b) && p < |b.cells|
    ensures Elems(r) == b.cells[p].domain && Increasing(r)
    ensures forall i :: 0 <= i < |r| ==> 1 <= r[i] <= 9
  {
    var r := Ascending(b.cells[p].domain);
    assert forall i :: 0 <= i < |r| ==> 1 <= r[i] <= 9 by {
      forall i | 0 <= i < |r| ensures 1 <= r[i] <= 9 {
        assert r[i] in Elems(r);
        DigitsRange(r[i]);
      }
    }
    r
  }

  /** The update reported when cell `p` receives `v` (0 when it is emptied). */
  function Report(b: Board, p: nat, v: int): CellUpdate
    requires p < |b.cells|
  {
    CellUpdate(b.cells[p].row, b.cells[p].col, v)
  }

  // ---------------------------------------------------------------------
  // The search as intended
  // ---------------------------------------------------------------------

  /** `recursive_solve`: a solved board is returned as it is; otherwise the
      branch cell's candidates are tried in turn on a copy, and the first
      copy whose search succeeds yields the solution that search found. A
      board with no empty cell that is not solved has no solution. */
  function RecursiveSolve(b: Board): (r: Search)
    requires WellFormed(b)
    ensures r.board.Some? ==> WellFormed(r.board.value) && IsSolved(r.board.value) && Extends(b, r.board.value)
    ensures IsSolved(b) ==> r == Search(Some(b), [])
    decreases |EmptyCells(b.cells)|, 1, 0
  {
    if IsSolved(b) then Search(Some(b), [])
    else
      match FindLeast(b.cells)
      case None => Search(None, [])
      case Some(p) =>
        if |b.cells[p].domain| == 0 then Search(None, [])
        else TryCandidates(b, p, Candidates(b, p))
  }

  /** The loop over the branch cell's candidates `vs`. A failed candidate is
      reported set and then reset to 0. */
  function TryCandidates(b: Board, p: nat, vs: seq<int>): (r: Search)
    requires WellFormed(b) && p < |b.cells| && b.cells[p].value == 0
    requires forall i :: 0 <= i < |vs| ==> 1 <= vs[i] <= 9
    ensures r.board.Some? ==> WellFormed(r.board.value) && IsSolved(r.board.value) && Extends(b, r.board.value)
    decreases |EmptyCells(b.cells)|, 0, |vs|
  {
    if vs == [] then Search(None, [])
    else
      var child := SetValue(b, p, vs[0]);
      SetValueFills(b, p, vs[0]);
      var sub := RecursiveSolve(child);
      if sub.board.Some? then
        ExtendsTransitive(b, child, sub.board.value);
        Search(sub.board, [Report(b, p, vs[0])] + sub.trace)
      else
        var rest := TryCandidates(b, p, vs[1..]);
        Search(rest.board, [Report(b, p, vs[0])] + sub.trace + [Report(b, p, 0)] + rest.trace)
  }

  /** `solve`: announce SOLVING, search a copy, then announce SOLVED or
      INCORRECT_SOLVE. */
  function Solve(b: Board): (r: SolveRun)
    requires WellFormed(b)
    ensures |r.states| == 2 && r.states[0] == Solving
    ensures r.states[1] == Solved <==> r.result.Some?
    ensures r.states[1] == IncorrectSolve <==> r.result.None?
    ensures r.result.Some? ==> WellFormed(r.result.value) && IsSolved(r.result.value) && Extends(b, r.result.value)
  {
    var s := RecursiveSolve(b);
    SolveRun([Solving, if s.board.Some? then Solved else IncorrectSolve], s.board, s.trace)
  }

  // ---------------------------------------------------------------------
  // What the search reports
  // ---------------------------------------------------------------------

  /** The values of the cells. */
  function Values(b: Board): seq<int>
  {
    seq(|b.cells|, p requires 0 <= p < |b.cells| => b.cells[p].value)
  }

  /** Cells know their own row and column. */
  predicate Positioned(b: Board)
  {
    |b.cells| == 81 && forall p :: 0 <= p < 81 ==> b.cells[p].row == p / 9 && b.cells[p].col == p % 9
  }

  /** The board `create_empty_board` builds is positioned. */
  lemma EmptyBoardPositioned()
    ensures Positioned(EmptyBoard())
  {
    forall p | 0 <= p < 81 ensures EmptyBoard().cells[p].row == p / 9 && EmptyBoard().cells[p].col == p % 9 {
      EmptyBoardCells(p);
    }
  }

  /** Replays reported updates on a grid of values, as an observer of the
      cell-update callback would. */
  function Replay(vals: seq<int>, trace: seq<CellUpdate>): seq<int>
    decreases |trace|
  {
    if trace == [] then vals
    else
      var u := trace[0];
      var at := 9 * u.row + u.col;
      Replay(if 0 <= at < |vals| then vals[at := u.value] else vals, trace[1..])
  }

  lemma {:induction false} ReplayAppend(vals: seq<int>, a: seq<CellUpdate>, c: seq<CellUpdate>)
    ensures Replay(vals, a + c) == Replay(Replay(vals, a), c)
    decreases |a|
  {
    if a == [] {
      assert a + c == c;
    } else {
      assert (a + c)[0] == a[0] && (a + c)[1..] == a[1..] + c;
      var u := a[0];
      var at := 9 * u.row + u.col;
      ReplayAppend(if 0 <= at < |vals| then vals[at := u.value] else vals, a[1..], c);
    }
  }

  /** Setting a value changes the value grid at that cell only, and keeps
      every cell's row and column. */
  lemma SetValueValues(b: Board, p: nat, v: int)
    requires WellFormed(b) && Positioned(b) && p < |b.cells|
    ensures Positioned(SetValue(b, p, v))
    ensures Values(SetValue(b, p, v)) == Values(b)[p := v]
  {
    var r := SetValue(b, p, v);
    assert forall q :: 0 <= q < 81 && q != p ==> r.cells[q].value == b.cells[q].value;
  }

  /** Replaying the reported updates on the input board's values gives the
      values of the board the search returns, and gives back the input's
      values when the search fails: every tentative assignment is reported,
      and every one that fails is reported undone. */
  lemma {:induction false} RecursiveSolveReplays(b: Board)
    requires WellFormed(b) && Positioned(b)
    ensures var r := RecursiveSolve(b);
      Replay(Values(b), r.trace) == if r.board.Some? then Values(r.board.value) else Values(b)
    decreases |EmptyCells(b.cells)|, 1, 0, 0
  {
    if !IsSolved(b) {
      match FindLeast(b.cells)
      case None =>
      case Some(p) =>
        if |b.cells[p].domain| != 0 {
          TryCandidatesReplays(b, p, Candidates(b, p));
        }
    }
  }

  /** Replaying one update writes its value at its cell. */
  lemma ReplayOne(vals: seq<int>, u: CellUpdate)
    requires 0 <= 9 * u.row + u.col < |vals|
    ensures Replay(vals, [u]) == vals[9 * u.row + u.col := u.value]
  {
    assert [u][1..] == [];
  }

  lemma {:induction false} TryCandidatesReplays(b: Board, p: nat, vs: seq<int>)
    requires WellFormed(b) && Positioned(b) && p < |b.cells| && b.cells[p].value == 0
    requires forall i :: 0 <= i < |vs| ==> 1 <= vs[i] <= 9
    ensures var r := TryCandidates(b, p, vs);
      Replay(Values(b), r.trace) == if r.board.Some? then Values(r.board.value) else Values(b)
    decreases |EmptyCells(b.cells)|, 0, |vs|, 1
  {
    if vs != [] {
      var sub := RecursiveSolve(SetValue(b, p, vs[0]));
      var setting := Report(b, p, vs[0]);
      CandidateReplays(b, p, vs[0]);
      if sub.board.None? {
        FailedCandidateReplays(b, p, vs, [setting] + sub.trace);
        assert TryCandidates(b, p, vs).trace
          == [setting] + sub.trace + [Report(b, p, 0)] + TryCandidates(b, p, vs[1..]).trace;
      } else {
        assert TryCandidates(b, p, vs) == Search(sub.board, [setting] + sub.trace);
      }
    }
  }

  /** One candidate: its report followed by the search's reports leaves the
      solved board's values, or the input's values with the candidate
      written in when the search fails. */
  lemma {:induction false} CandidateReplays(b: Board, p: nat, v: int)
    requires WellFormed(b) && Positioned(b) && p < |b.cells| && b.cells[p].value == 0
    requires 1 <= v <= 9
    ensures var sub := RecursiveSolve(SetValue(b, p, v));
      Replay(Values(b), [Report(b, p, v)] + sub.trace)
        == if sub.board.Some? then Values(sub.board.value) else Values(b)[p := v]
    decreases |EmptyCells(b.cells)|, 0, 0, 0
  {
    var child := SetValue(b, p, v);
    SetValueFills(b, p, v);
    SetValueValues(b, p, v);
    RecursiveSolveReplays(child);
    var setting := Report(b, p, v);
    assert 9 * setting.row + setting.col == p;
    ReplayOne(Values(b), setting);
    ReplayAppend(Values(b), [setting], RecursiveSolve(child).trace);
  }

  /** A failed candidate: its report and the failed search's reports `head`
      leave the candidate written in, the reset takes it out again, and the
      remaining candidates follow. */
  lemma {:induction false} FailedCandidateReplays(b: Board, p: nat, vs: seq<int>, head: seq<CellUpdate>)
    requires WellFormed(b) && Positioned(b) && p < |b.cells| && b.cells[p].value == 0
    requires forall i :: 0 <= i < |vs| ==> 1 <= vs[i] <= 9
    requires vs != []
    requires Replay(Values(b), head) == Values(b)[p := vs[0]]
    ensures var rest := TryCandidates(b, p, vs[1..]);
      Replay(Values(b), head + [Report(b, p, 0)] + rest.trace)
        == if rest.board.Some? then Values(rest.board.value) else Values(b)
    decreases |EmptyCells(b.cells)|, 0, |vs|, 0
  {
    var unset := Report(b, p, 0);
    var rest := TryCandidates(b, p, vs[1..]);
    TryCandidatesReplays(b, p, vs[1..]);
    assert 9 * unset.row + unset.col == p;
    ReplayOne(Values(b)[p := vs[0]], unset);
    assert Values(b)[p := vs[0]][p := 0] == Values(b);
    ReplayAppend(Values(b), head, [unset]);
    ReplayAppend(Values(b), head + [unset], rest.trace);
  }

  // ---------------------------------------------------------------------
  // Consequences
  // ---------------------------------------------------------------------

  /** A branch cell without candidates is a dead end: both searches give up
      without reporting anything. */
  lemma EmptyDomainFails(b: Board, p: nat)
    requires WellFormed(b) && !IsSolved(b) && FindLeast(b.cells) == Some(p)
    requires b.cells[p].domain == {}
    ensures RecursiveSolve(b) == Search(None, [])
    ensures RecursiveSolveAsWritten(b) == Run(NotFound, [])
  {
  }

  /** A row, column or box that already holds a repeated value can never be
      repaired, since the search only fills empty cells: the search fails. */
  lemma ClashNeverSolved(b: Board, k: nat)
    requires WellFormed(b) && k < |b.constraints| && b.constraints[k].Group?
    requires !NoClash(b.cells, b.constraints[k].cells)
    ensures RecursiveSolve(b).board.None?
  {
    var r := RecursiveSolve(b);
    if r.board.Some? {
      var s := r.board.value;
      var idx := b.constraints[k].cells;
      var i, j :| 0 <= i < j < |idx| && b.cells[idx[i]].value != 0 && b.cells[idx[i]].value == b.cells[idx[j]].value;
      GroupVerifyIff(s.cells, idx);
    }
  }

  /** A full board is returned as found exactly when it is solved. */
  lemma FullBoardSearch(b: Board)
    requires WellFormed(b)
    requires forall p :: 0 <= p < |b.cells| ==> b.cells[p].value != 0
    ensures RecursiveSolve(b).board.Some? <==> IsSolved(b)
    ensures RecursiveSolve(b).trace == []
  {
  }

  // ---------------------------------------------------------------------
  // The search as the source writes it
  // ---------------------------------------------------------------------

  /** How a call of the source's `recursive_solve` ends: with a board, with
      None, or with an exception (reading a field of None). */
  datatype Outcome = Found(board: Board) | NotFound | Raised

  datatype Run = Run(outcome: Outcome, trace: seq<CellUpdate>)

  /** `recursive_solve` line for line: a full board that is not solved makes
      the branch-cell lookup return None and the next line raise, and a
      successful candidate returns the copy made at this level rather than
      the board the deeper search solved. */
  function RecursiveSolveAsWritten(b: Board): (r: Run)
    requires WellFormed(b)
    ensures IsSolved(b) ==> r == Run(Found(b), [])
    ensures r.outcome.Found? ==> WellFormed(r.outcome.board) && Extends(b, r.outcome.board)
    decreases |EmptyCells(b.cells)|, 1, 0
  {
    if IsSolved(b) then Run(Found(b), [])
    else
      match FindLeast(b.cells)
      case None => Run(Raised, [])
      case Some(p) =>
        if |b.cells[p].domain| == 0 then Run(NotFound, [])
        else TryAsWritten(b, p, Candidates(b, p))
  }

  function TryAsWritten(b: Board, p: nat, vs: seq<int>): (r: Run)
    requires WellFormed(b) && p < |b.cells| && b.cells[p].value == 0
    requires forall i :: 0 <= i < |vs| ==> 1 <= vs[i] <= 9
    ensures r.outcome.Found? ==> WellFormed(r.outcome.board) && Extends(b, r.outcome.board)
    ensures r.outcome.Found? ==> EmptyCells(r.outcome.board.cells) == EmptyCells(b.cells) - {p}
    decreases |EmptyCells(b.cells)|, 0, |vs|
  {
    if vs == [] then Run(NotFound, [])
    else
      var child := SetValue(b, p, vs[0]);
      SetValueFills(b, p, vs[0]);
      var sub := RecursiveSolveAsWritten(child);
      match sub.outcome
      case Raised => Run(Raised, [Report(b, p, vs[0])] + sub.trace)
      case Found(_) => Run(Found(child), [Report(b, p, vs[0])] + sub.trace)
      case NotFound =>
        var rest := TryAsWritten(b, p, vs[1..]);
        Run(rest.outcome, [Report(b, p, vs[0])] + sub.trace + [Report(b, p, 0)] + rest.trace)
  }

  /** Unless it raises, the search as written reports the same updates as
      the intended one and succeeds exactly when it does. */
  lemma {:induction false} AsWrittenAgrees(b: Board)
    requires WellFormed(b)
    ensures var w := RecursiveSolveAsWritten(b); var r := RecursiveSolve(b);
      !w.outcome.Raised? ==> w.trace == r.trace && (w.outcome.Found? <==> r.board.Some?)
    decreases |EmptyCells(b.cells)|, 1, 0
  {
    if !IsSolved(b) {
      match FindLeast(b.cells)
      case None =>
      case Some(p) =>
        if |b.cells[p].domain| != 0 {
          TryAsWrittenAgrees(b, p, Candidates(b, p));
        }
    }
  }

  lemma {:induction false} TryAsWrittenAgrees(b: Board, p: nat, vs: seq<int>)
    requires WellFormed(b) && p < |b.cells| && b.cells[p].value == 0
    requires forall i :: 0 <= i < |vs| ==> 1 <= vs[i] <= 9
    ensures var w := TryAsWritten(b, p, vs); var r := TryCandidates(b, p, vs);
      !w.outcome.Raised? ==> w.trace == r.trace && (w.outcome.Found? <==> r.board.Some?)
    decreases |EmptyCells(b.cells)|, 0, |vs|
  {
    if vs != [] {
      var child := SetValue(b, p, vs[0]);
      SetValueFills(b, p, vs[0]);
      AsWrittenAgrees(child);
      TryAsWrittenAgrees(b, p, vs[1..]);
    }
  }

  /** The search as written, when it succeeds on a board that is not yet
      solved, returns a board with exactly one more filled cell: whenever at
      least two cells were empty, what it returns is not solved. */
  lemma AsWrittenReturnsUnsolvedCopy(b: Board)
    requires WellFormed(b) && |EmptyCells(b.cells)| >= 2
    ensures var w := RecursiveSolveAsWritten(b);
      w.outcome.Found? ==> |EmptyCells(w.outcome.board.cells)| == |EmptyCells(b.cells)| - 1
                           && !IsSolved(w.outcome.board)
  {
    var w := RecursiveSolveAsWritten(b);
    NotSolvedWhileEmpty(b);
    if w.outcome.Found? {
      var p := FindLeast(b.cells).value;
      assert p in EmptyCells(b.cells);
      assert w == TryAsWritten(b, p, Candidates(b, p));
      NotSolvedWhileEmpty(w.outcome.board);
    }
  }

  /** A board with an empty cell is not solved. */
  lemma NotSolvedWhileEmpty(b: Board)
    requires WellFormed(b) && |EmptyCells(b.cells)| > 0
    ensures !IsSolved(b)
  {
  }

  /** The search as written raises on a full board that is not solved. */
  lemma AsWrittenRaisesOnFullUnsolved(b: Board)
    requires WellFormed(b) && !IsSolved(b)
    requires forall p :: 0 <= p < |b.cells| ==> b.cells[p].value != 0
    ensures RecursiveSolveAsWritten(b) == Run(Raised, [])
    ensures RecursiveSolve(b) == Search(None, [])
  {
  }

  // ---------------------------------------------------------------------
  // Two boards that show the difference
  // ---------------------------------------------------------------------

  /** A board without constraints in which the cells from `k` up to 1 are
      empty with the single candidate 1 and every other cell holds 1. */
  function Gaps(k: nat): Board
  {
    Board(seq(81, p requires 0 <= p < 81 => Cell(p / 9, p % 9, if k <= p < 2 then 0 else 1, {1}, [])), [])
  }

  lemma GapsWellFormed(k: nat)
    ensures WellFormed(Gaps(k))
  {
  }

  /** While a gap is left, the branch cell is the first gap. */
  lemma GapsLeast(k: nat)
    requires k < 2
    ensures !IsSolved(Gaps(k)) && FindLeast(Gaps(k).cells) == Some(k)
  {
    var b := Gaps(k);
    assert b.cells[k].value == 0;
    assert LeastUpTo(b.cells, k, 81);
    LeastFound(b.cells, k);
  }

  /** Filling the first gap with its only candidate leaves one gap fewer. */
  lemma GapsFill(k: nat)
    requires k < 2
    ensures Candidates(Gaps(k), k) == [1]
    ensures SetValue(Gaps(k), k, 1) == Gaps(k + 1)
  {
    OneCandidate(Gaps(k), k);
    assert SetValue(Gaps(k), k, 1).cells == Gaps(k + 1).cells;
  }

  lemma GapsSolved(k: nat)
    requires k >= 2
    ensures WellFormed(Gaps(k)) && IsSolved(Gaps(k))
    ensures RecursiveSolve(Gaps(k)) == Search(Some(Gaps(k)), [])
    ensures RecursiveSolveAsWritten(Gaps(k)) == Run(Found(Gaps(k)), [])
  {
  }

  /** When the branch cell has a single candidate and the search of the
      filled-in copy succeeds, the intended search returns what it found. */
  lemma SingleCandidateStep(b: Board, p: nat, v: int)
    requires WellFormed(b) && !IsSolved(b) && FindLeast(b.cells) == Some(p) && Candidates(b, p) == [v]
    requires RecursiveSolve(SetValue(b, p, v)).board.Some?
    ensures RecursiveSolve(b).board == RecursiveSolve(SetValue(b, p, v)).board
  {
    assert |b.cells[p].domain| != 0 by {
      assert v in Elems(Candidates(b, p));
    }
  }

  /** When the branch cell has a single candidate and the search of the
      filled-in copy succeeds, the search as written returns that copy. */
  lemma SingleCandidateStepAsWritten(b: Board, p: nat, v: int)
    requires WellFormed(b) && !IsSolved(b) && FindLeast(b.cells) == Some(p) && Candidates(b, p) == [v]
    requires RecursiveSolveAsWritten(SetValue(b, p, v)).outcome.Found?
    ensures RecursiveSolveAsWritten(b).outcome == Found(SetValue(b, p, v))
  {
    assert |b.cells[p].domain| != 0 by {
      assert v in Elems(Candidates(b, p));
    }
  }

  /** With two gaps, the intended search solves the board, while the search
      as written reports success but returns the copy in which only the
      first gap is filled. The gap index is a parameter rather than a
      literal so that the verifier does not unfold the example boards
      eagerly. */
  lemma TwoGapsShowsCopyReturned(k: nat)
    requires k == 0
    ensures WellFormed(Gaps(k)) && WellFormed(Gaps(k + 1)) && WellFormed(Gaps(k + 2))
    ensures RecursiveSolve(Gaps(k)).board == Some(Gaps(k + 2)) && IsSolved(Gaps(k + 2))
    ensures RecursiveSolveAsWritten(Gaps(k)).outcome == Found(Gaps(k + 1)) && !IsSolved(Gaps(k + 1))
  {
    GapsWellFormed(k);
    GapsWellFormed(k + 1);
    GapsWellFormed(k + 2);
    GapsLeast(k);
    GapsLeast(k + 1);
    GapsFill(k);
    GapsFill(k + 1);
    GapsSolved(k + 2);
    SingleCandidateStep(Gaps(k + 1), k + 1, 1);
    SingleCandidateStep(Gaps(k), k, 1);
    SingleCandidateStepAsWritten(Gaps(k + 1), k + 1, 1);
    SingleCandidateStepAsWritten(Gaps(k), k, 1);
  }

  /** FindLeast returns the least cell. */
  lemma LeastFound(cells: seq<Cell>, p: nat)
    requires IsLeast(cells, p)
    ensures FindLeast(cells) == Some(p)
  {
    LeastUnique(cells, p, FindLeast(cells).value);
  }

  /** A cell whose domain is {1} has the single candidate 1. */
  lemma OneCandidate(b: Board, p: nat)
    requires WellFormed(b) && p < |b.cells| && b.cells[p].domain == {1}
    ensures Candidates(b, p) == [1]
  {
    IncreasingUnique(Candidates(b, p), [1]);
  }

  /** A full board in which some row, column or box repeats a value is not
      solved: the search as written raises on it, and the intended search
      reports that there is no solution. */
  lemma FullClashRaises(b: Board, k: nat)
    requires WellFormed(b) && forall p :: 0 <= p < |b.cells| ==> b.cells[p].value != 0
    requires k < |b.constraints| && b.constraints[k].Group?
    requires !NoClash(b.cells, b.constraints[k].cells)
    ensures !IsSolved(b)
    ensures RecursiveSolveAsWritten(b) == Run(Raised, [])
    ensures RecursiveSolve(b) == Search(None, [])
  {
    GroupVerifyIff(b.cells, b.constraints[k].cells);
  }

  /** Board `e` with 1 written in every cell. */
  function Ones(e: Board): Board
  {
    Board(seq(|e.cells|, p requires 0 <= p < |e.cells| => e.cells[p].(value := 1)), e.constraints)
  }

  /** A board whose first constraint is row 0, with 1 written in every
      cell, is full but repeats 1 in row 0: the search as written raises on
      it. */
  lemma OnesShowsRaise(e: Board)
    requires WellFormed(e) && 0 < |e.constraints| && e.constraints[0] == Group(Row, RowCells(0))
    ensures WellFormed(Ones(e)) && !IsSolved(Ones(e))
    ensures forall p :: 0 <= p < |Ones(e).cells| ==> Ones(e).cells[p].value != 0
    ensures RecursiveSolveAsWritten(Ones(e)) == Run(Raised, [])
    ensures RecursiveSolve(Ones(e)) == Search(None, [])
  {
    var b := Ones(e);
    var row := RowCells(0);
    assert row[0] == 0 && row[1] == 1;
    assert !NoClash(b.cells, row);
    FullClashRaises(b, 0);
  }

  /** The empty board is such a board. */
  lemma EmptyBoardOnesRaise()
    ensures WellFormed(Ones(EmptyBoard())) && !IsSolved(Ones(EmptyBoard()))
    ensures RecursiveSolveAsWritten(Ones(EmptyBoard())) == Run(Raised, [])
    ensures RecursiveSolve(Ones(EmptyBoard())) == Search(None, [])
  {
    EmptyBoardWellFormed();
    assert EmptyBoard().constraints[0] == Group(Row, RowCells(0));
    OnesShowsRaise(EmptyBoard());
  }
}

=== FILE: sudoku_board.dfy ===
/** The board: 81 cells in row-major order (cell (r, c) at position 9r + c)
    and the list of constraints. A cell names its constraints by their
    position in that list, so copying a board is copying a value. */
module SudokuBoard {
  import opened Collections
  import opened SudokuCell
  import opened Constraints

  datatype Board = Board(cells: seq<Cell>, constraints: seq<Constraint>)

  /** One report to the cell-update callback: a value was written at (row, col);
      0 reports that the cell was emptied again. */
  datatype CellUpdate = CellUpdate(row: int, col: int, value: int)

  /** Every link of a cell names a constraint of the board. */
  predicate LinksFit(links: seq<nat>, n: nat)
  {
    forall i :: 0 <= i < |links| ==> links[i] < n
  }

  /** The shape every board the program builds has: 81 cells, constraints and
      links that point inside the board, and domains made of digits (domains
      start as 1..9 and only ever shrink). */
  predicate WellFormed(b: Board)
  {
    && |b.cells| == 81
    && (forall k :: 0 <= k < |b.constraints| ==> Fits(b.constraints[k], |b.cells|))
    && (forall p :: 0 <= p < |b.cells| ==> LinksFit(b.cells[p].links, |b.constraints|))
    && (forall p :: 0 <= p < |b.cells| ==> b.cells[p].domain <= Digits)
  }

  /** Cells and constraints refer to each other both ways: a cell lists a
      constraint exactly when the constraint lists the cell. */
  predicate Linked(b: Board)
    requires WellFormed(b)
  {
    && (forall p, i :: 0 <= p < |b.cells| && 0 <= i < |b.cells[p].links| ==>
          p in Members(b.constraints[b.cells[p].links[i]]))
    && (forall k, j :: 0 <= k < |b.constraints| && 0 <= j < |Members(b.constraints[k])| ==>
          k in b.cells[Members(b.constraints[k])[j]].links)
  }

  /** The positions of the empty cells. */
  function EmptyCells(cells: seq<Cell>): set<nat>
  {
    set p: nat | p < |cells| && cells[p].value == 0
  }

  lemma {:induction false} EmptyCellsBound(cells: seq<Cell>)
    ensures |EmptyCells(cells)| <= |cells|
    decreases |cells|
  {
    if cells != [] {
      var init := cells[..|cells| - 1];
      EmptyCellsBound(init);
      var last: set<nat> := if cells[|cells| - 1].value == 0 then {|cells| - 1} else {};
      assert EmptyCells(cells) == EmptyCells(init) + last;
      assert |last| <= 1;
    }
  }

  /** `r` keeps every value `b` had placed, over the same constraints. */
  predicate Extends(b: Board, r: Board)
  {
    && |r.cells| == |b.cells|
    && r.constraints == b.constraints
    && forall p :: 0 <= p < |b.cells| && b.cells[p].value != 0 ==> r.cells[p].value == b.cells[p].value
  }

  lemma ExtendsTransitive(a: Board, b: Board, c: Board)
    requires Extends(a, b) && Extends(b, c)
    ensures Extends(a, c)
  {
  }

  /** The board is solved: every cell holds a value and every constraint
      verifies. The program calls `is_solved` without ever defining it; this
      is the definition its callers rely on. */
  predicate IsSolved(b: Board)
    requires WellFormed(b)
  {
    && (forall p :: 0 <= p < |b.cells| ==> b.cells[p].value != 0)
    && (forall k :: 0 <= k < |b.constraints| ==> Verify(b.cells, b.constraints[k]))
  }

  // ---------------------------------------------------------------------
  // Cell operations (set_value, add_constraint)
  // ---------------------------------------------------------------------

  /** Runs the listed constraints' propagation one after another. */
  function PropagateLinks(cells: seq<Cell>, cs: seq<Constraint>, links: seq<nat>): (r: seq<Cell>)
    requires forall k :: 0 <= k < |cs| ==> Fits(cs[k], |cells|)
    requires LinksFit(links, |cs|)
    ensures |r| == |cells|
    ensures forall p :: 0 <= p < |cells| ==> Narrows(cells[p], r[p])
    decreases |links|
  {
    if links == [] then cells
    else
      var next := Propagate(cells, cs[links[0]]);
      var r := PropagateLinks(next, cs, links[1..]);
      assert forall p :: 0 <= p < |cells| ==> Narrows(cells[p], r[p]) by {
        forall p | 0 <= p < |cells| ensures Narrows(cells[p], r[p]) {
          NarrowsTransitive(cells[p], next[p], r[p]);
        }
      }
      r
  }

  /** `set_value`: write `v` into cell `p`, then propagate every constraint
      of that cell in the order the cell lists them. */
  function SetValue(b: Board, p: nat, v: int): (r: Board)
    requires WellFormed(b) && p < |b.cells|
    ensures WellFormed(r)
    ensures r.constraints == b.constraints
    ensures r.cells[p].value == v
    ensures Narrows(b.cells[p].(value := v), r.cells[p])
    ensures forall q :: 0 <= q < |b.cells| && q != p ==> Narrows(b.cells[q], r.cells[q])
  {
    var written := b.cells[p := b.cells[p].(value := v)];
    Board(PropagateLinks(written, b.constraints, b.cells[p].links), b.constraints)
  }

  /** Assigning a digit to an empty cell fills exactly that cell, and keeps
      every value already placed. */
  lemma SetValueFills(b: Board, p: nat, v: int)
    requires WellFormed(b) && p < |b.cells|
    requires b.cells[p].value == 0 && v != 0
    ensures EmptyCells(SetValue(b, p, v).cells) == EmptyCells(b.cells) - {p}
    ensures Extends(b, SetValue(b, p, v))
  {
    var r := SetValue(b, p, v);
    assert forall q :: 0 <= q < |b.cells| && q != p ==> r.cells[q].value == b.cells[q].value;
  }

  /** Assigning a value never changes which constraints a cell belongs to,
      so a linked board stays linked. */
  lemma LinkedKept(b: Board, p: nat, v: int)
    requires WellFormed(b) && Linked(b) && p < |b.cells|
    ensures Linked(SetValue(b, p, v))
  {
    var r := SetValue(b, p, v);
    forall q | 0 <= q < |b.cells| ensures r.cells[q].links == b.cells[q].links {
      if q == p {
        assert Narrows(b.cells[p].(value := v), r.cells[p]);
      } else {
        assert Narrows(b.cells[q], r.cells[q]);
      }
    }
  }

  /** Assigning `v` to cell `p` removes `v` from the domain of every empty
      cell that shares a row, column, box or cage with `p` through one of
      `p`'s constraints. */
  lemma SetValueClearsPeers(b: Board, p: nat, v: int, i: nat, q: nat)
    requires WellFormed(b) && Linked(b) && p < |b.cells| && v != 0
    requires i < |b.cells[p].links|
    requires b.constraints[b.cells[p].links[i]].Group? || b.constraints[b.cells[p].links[i]].Cage?
    requires q in b.constraints[b.cells[p].links[i]].cells
    requires SetValue(b, p, v).cells[q].value == 0
    ensures v !in SetValue(b, p, v).cells[q].domain
  {
    var written := b.cells[p := b.cells[p].(value := v)];
    assert p in Members(b.constraints[b.cells[p].links[i]]);
    PropagateLinksClears(written, b.constraints, b.cells[p].links, p, v, i, q);
  }

  lemma {:induction false} PropagateLinksClears(cells: seq<Cell>, cs: seq<Constraint>, links: seq<nat>,
                                                p: nat, v: int, i: nat, q: nat)
    requires forall k :: 0 <= k < |cs| ==> Fits(cs[k], |cells|)
    requires LinksFit(links, |cs|)
    requires p < |cells| && cells[p].value == v && v != 0
    requires i < |links|
    requires cs[links[i]].Group? || cs[links[i]].Cage?
    requires p in cs[links[i]].cells && q in cs[links[i]].cells
    requires PropagateLinks(cells, cs, links)[q].value == 0
    ensures v !in PropagateLinks(cells, cs, links)[q].domain
    decreases |links|
  {
    var next := Propagate(cells, cs[links[0]]);
    var r := PropagateLinks(next, cs, links[1..]);
    assert r == PropagateLinks(cells, cs, links);
    assert Within(cs[links[i]].cells, |cells|);
    assert q < |cells|;
    assert Narrows(next[q], r[q]) && Narrows(cells[q], next[q]);
    if i == 0 {
      var c := cs[links[0]];
      var jp :| 0 <= jp < |c.cells| && c.cells[jp] == p;
      var jq :| 0 <= jq < |c.cells| && c.cells[jq] == q;
      PropagateClearsPlaced(cells, c, jq, jp);
    } else {
      assert Narrows(cells[p], next[p]);
      assert links[1..][i - 1] == links[i];
      PropagateLinksClears(next, cs, links[1..], p, v, i - 1, q);
    }
  }

  /** `add_constraint`: append constraint `k` to cell `p`'s list, then run
      that constraint's propagation. */
  function AddConstraint(b: Board, p: nat, k: nat): (r: Board)
    requires WellFormed(b) && p < |b.cells| && k < |b.constraints|
    ensures WellFormed(r)
    ensures r.constraints == b.constraints
    ensures |r.cells[p].links| == |b.cells[p].links| + 1
    ensures r.cells[p].links[..|b.cells[p].links|] == b.cells[p].links
    ensures r.cells[p].links[|b.cells[p].links|] == k
    ensures forall q :: 0 <= q < |b.cells| && q != p ==> Narrows(b.cells[q], r.cells[q])
    ensures r.cells[p].value == b.cells[p].value && r.cells[p].domain <= b.cells[p].domain
  {
    var linked := b.cells[p := b.cells[p].(links := b.cells[p].links + [k])];
    Board(Propagate(linked, b.constraints[k]), b.constraints)
  }

  /** Adding a row, column, box or cage to a cell runs that constraint's
      propagation: afterwards no empty member of the constraint keeps a digit
      another member holds. */
  lemma AddConstraintClears(b: Board, p: nat, k: nat, i: nat, j: nat)
    requires WellFormed(b) && p < |b.cells| && k < |b.constraints|
    requires b.constraints[k].Group? || b.constraints[k].Cage?
    requires i < |b.constraints[k].cells| && j < |b.constraints[k].cells|
    requires b.cells[b.constraints[k].cells[i]].value == 0 && b.cells[b.constraints[k].cells[j]].value != 0
    ensures b.cells[b.constraints[k].cells[j]].value !in AddConstraint(b, p, k).cells[b.constraints[k].cells[i]].domain
  {
    PropagateClearsPlaced(b.cells[p := b.cells[p].(links := b.cells[p].links + [k])], b.constraints[k], i, j);
  }

  // ---------------------------------------------------------------------
  // The empty board (create_empty_board)
  // ---------------------------------------------------------------------

  /** The positions of row `i`, left to right. */
  function RowCells(i: nat): seq<nat>
  {
    seq(9, j requires 0 <= j < 9 => 9 * i + j)
  }

  /** The positions of column `i`, top to bottom. */
  function ColumnCells(i: nat): seq<nat>
  {
    seq(9, j requires 0 <= j < 9 => 9 * j + i)
  }

  /** The positions of box (`br`, `bc`), row by row: the `t`-th is the cell
      at row 3br + t / 3 and column 3bc + t % 3. */
  function BoxCells(br: nat, bc: nat): seq<nat>
  {
    seq(9, t requires 0 <= t < 9 => 9 * (3 * br + t / 3) + 3 * bc + t % 3)
  }

  /** The `k`-th constraint of an empty board: rows and columns interleaved
      (row i at 2i, column i at 2i + 1), then the nine boxes row by row. */
  function StructuralGroup(k: nat): Constraint
    requires k < 27
  {
    if k < 18 then
      if k % 2 == 0 then Group(Row, RowCells(k / 2)) else Group(Column, ColumnCells(k / 2))
    else
      Group(Box, BoxCells((k - 18) / 3, (k - 18) % 3))
  }

  /** The links cell `p` has once the first `n` groups are built. */
  function LinksUpTo(p: nat, n: nat): (r: seq<nat>)
    requires n <= 27
    ensures Increasing(r)
    ensures forall k :: k in r <==> 0 <= k < n && p in StructuralGroup(k).cells
  {
    if n == 0 then []
    else
      var prefix := LinksUpTo(p, n - 1);
      assert forall i :: 0 <= i < |prefix| ==> prefix[i] < n - 1 by {
        forall i | 0 <= i < |prefix| ensures prefix[i] < n - 1 {
          assert prefix[i] in prefix;
        }
      }
      prefix + (if p in StructuralGroup(n - 1).cells then [n - 1] else [])
  }

  /** The board `create_empty_board` returns, in closed form. */
  function EmptyBoard(): Board
  {
    Board(seq(81, p requires 0 <= p < 81 => NewCell(p / 9, p % 9).(links := LinksUpTo(p, 27))),
          seq(27, k requires 0 <= k < 27 => StructuralGroup(k)))
  }

  /** Every cell of an empty board is empty, has every digit as a candidate,
      and knows its row and column. */
  lemma EmptyBoardCells(p: nat)
    requires p < 81
    ensures |EmptyBoard().cells| == 81 && |EmptyBoard().constraints| == 27
    ensures EmptyBoard().cells[p].value == 0 && EmptyBoard().cells[p].domain == Digits
    ensures EmptyBoard().cells[p].row == p / 9 && EmptyBoard().cells[p].col == p % 9
  {
  }

  /** The row, column and box constraints of cell `p` in an empty board. */
  function RowIndex(p: nat): nat { 2 * (p / 9) }
  function ColumnIndex(p: nat): nat { 2 * (p % 9) + 1 }
  function BoxIndex(p: nat): nat { 18 + 3 * (p / 27) + (p % 9) / 3 }

  lemma InRow(p: nat, i: nat)
    ensures p in RowCells(i) <==> p / 9 == i
  {
    if p / 9 == i {
      assert RowCells(i)[p - 9 * i] == p;
    }
  }

  lemma InColumn(p: nat, i: nat)
    requires p < 81 && i < 9
    ensures p in ColumnCells(i) <==> p % 9 == i
  {
    if p % 9 == i {
      assert ColumnCells(i)[p / 9] == p;
    }
  }

  /** Where the `t`-th cell of a box lies. */
  lemma BoxCellAt(br: nat, bc: nat, t: nat)
    requires br < 3 && bc < 3 && t < 9
    ensures BoxCells(br, bc)[t] / 9 == 3 * br + t / 3
    ensures BoxCells(br, bc)[t] % 9 == 3 * bc + t % 3
    ensures BoxCells(br, bc)[t] < 81
  {
  }

  /** The boxes partition the grid: cell `p` lies in box (`br`, `bc`)
      exactly when its row is in the box's band and its column in the
      box's stack. */
  lemma InBox(p: nat, br: nat, bc: nat)
    requires p < 81 && br < 3 && bc < 3
    ensures p in BoxCells(br, bc) <==> p / 27 == br && (p % 9) / 3 == bc
  {
    if p in BoxCells(br, bc) {
      var t :| 0 <= t < 9 && BoxCells(br, bc)[t] == p;
      BoxCellAt(br, bc, t);
      SplitThree(br, t / 3);
      SplitThree(bc, t % 3);
      assert p / 27 == (p / 9) / 3;
    }
    if p / 27 == br && (p % 9) / 3 == bc {
      var a, d := p / 9 - 3 * br, p % 9 - 3 * bc;
      assert 0 <= a < 3 && 0 <= d < 3;
      var t := 3 * a + d;
      SplitThree(a, d);
      assert BoxCells(br, bc)[t] == 9 * (3 * br + a) + 3 * bc + d;
    }
  }

  /** Division by 3 undoes `3 * a + d` for a digit `d` below 3. */
  lemma SplitThree(a: int, d: int)
    requires 0 <= a && 0 <= d < 3
    ensures (3 * a + d) / 3 == a && (3 * a + d) % 3 == d
  {
  }

  /** Cell `p` of an empty board belongs to group `k` exactly when `k` is
      its row, its column or its box. */
  lemma InGroup(p: nat, k: nat)
    requires p < 81 && k < 27
    ensures p in StructuralGroup(k).cells <==> k == RowIndex(p) || k == ColumnIndex(p) || k == BoxIndex(p)
  {
    if k < 18 {
      InRow(p, k / 2);
      InColumn(p, k / 2);
    } else {
      InBox(p, (k - 18) / 3, (k - 18) % 3);
    }
  }

  /** Every cell of an empty board is linked to exactly three constraints:
      its row, its column and its box, in the order the source appends them
      (the row and column loops are interleaved, so of row r and column c the
      one with the smaller loop counter comes first; the box comes last). */
  lemma EmptyBoardLinks(p: nat)
    requires p < 81
    ensures EmptyBoard().cells[p].links ==
      (if p / 9 <= p % 9 then [RowIndex(p), ColumnIndex(p)] else [ColumnIndex(p), RowIndex(p)]) + [BoxIndex(p)]
  {
    var links := LinksUpTo(p, 27);
    var expected: seq<int> :=
      (if p / 9 <= p % 9 then [RowIndex(p), ColumnIndex(p)] else [ColumnIndex(p), RowIndex(p)]) + [BoxIndex(p)];
    assert Elems(links) == Elems(expected) by {
      forall k ensures k in links <==> k in expected {
        if 0 <= k < 27 {
          InGroup(p, k);
        }
      }
    }
    IncreasingUnique(links, expected);
  }

  /** Each link of an empty board's cell names one of the 27 groups, and
      that group lists the cell. */
  lemma EmptyCellLinked(b: Board, p: nat)
    requires b == EmptyBoard() && p < 81
    ensures forall i :: 0 <= i < |b.cells[p].links| ==>
              b.cells[p].links[i] < 27 && p in StructuralGroup(b.cells[p].links[i]).cells
  {
    forall i | 0 <= i < |b.cells[p].links|
      ensures b.cells[p].links[i] < 27 && p in StructuralGroup(b.cells[p].links[i]).cells
    {
      assert b.cells[p].links[i] in LinksUpTo(p, 27);
    }
  }

  /** Each group of an empty board fits the grid, and every cell it lists
      links back to it. */
  lemma EmptyGroupLinked(b: Board, k: nat)
    requires b == EmptyBoard() && k < 27
    ensures Fits(b.constraints[k], 81)
    ensures forall j :: 0 <= j < |Members(b.constraints[k])| ==> k in b.cells[Members(b.constraints[k])[j]].links
  {
    GroupDistinct(k);
    forall j | 0 <= j < |Members(b.constraints[k])| ensures k in b.cells[Members(b.constraints[k])[j]].links {
      var q := Members(b.constraints[k])[j];
      assert q in StructuralGroup(k).cells;
    }
  }

  /** The empty board is well formed, and its cells and constraints refer to
      each other both ways. */
  lemma EmptyBoardWellFormed()
    ensures WellFormed(EmptyBoard()) && Linked(EmptyBoard())
  {
    var b := EmptyBoard();
    forall k | 0 <= k < 27 ensures Fits(b.constraints[k], 81) {
      EmptyGroupLinked(b, k);
    }
    forall p | 0 <= p < 81 ensures LinksFit(b.cells[p].links, 27) {
      EmptyCellLinked(b, p);
    }
    assert WellFormed(b);
    forall p, i | 0 <= p < 81 && 0 <= i < |b.cells[p].links|
      ensures p in Members(b.constraints[b.cells[p].links[i]])
    {
      EmptyCellLinked(b, p);
    }
    forall k, j | 0 <= k < 27 && 0 <= j < |Members(b.constraints[k])|
      ensures k in b.cells[Members(b.constraints[k])[j]].links
    {
      EmptyGroupLinked(b, k);
    }
  }

  /** `for cell in cells: cell.constraints.append(k)`, over positions. */
  method LinkAll(cells: seq<Cell>, idx: seq<nat>, k: nat) returns (r: seq<Cell>)
    requires Within(idx, |cells|) && Distinct(idx)
    ensures |r| == |cells|
    ensures forall p :: 0 <= p < |cells| ==>
      r[p] == cells[p].(links := cells[p].links + (if p in idx then [k] else []))
  {
    r := cells;
    for j := 0 to |idx|
      invariant |r| == |cells|
      invariant forall p :: 0 <= p < |cells| ==>
        r[p] == cells[p].(links := cells[p].links + (if p in idx[..j] then [k] else []))
    {
      var p := idx[j];
      assert p !in idx[..j];
      assert idx[..j + 1] == idx[..j] + [p];
      r := r[p := r[p].(links := r[p].links + [k])];
    }
    assert idx[..|idx|] == idx;
  }

  /** The first `|constraints|` groups of an empty board are built and
      linked to their cells. */
  predicate Built(cells: seq<Cell>, constraints: seq<Constraint>)
  {
    && |cells| == 81 && |constraints| <= 27
    && (forall k :: 0 <= k < |constraints| ==> constraints[k] == StructuralGroup(k))
    && (forall p :: 0 <= p < 81 ==> cells[p] == NewCell(p / 9, p % 9).(links := LinksUpTo(p, |constraints|)))
  }

  /** Appends the next group and links it to its cells. */
  method AddGroup(cells: seq<Cell>, constraints: seq<Constraint>, g: Constraint)
    returns (cells': seq<Cell>, constraints': seq<Constraint>)
    requires Built(cells, constraints) && |constraints| < 27
    requires g == StructuralGroup(|constraints|)
    ensures Built(cells', constraints') && constraints' == constraints + [g]
  {
    GroupDistinct(|constraints|);
    constraints' := constraints + [g];
    cells' := LinkAll(cells, g.cells, |constraints|);
  }

  /** `create_empty_board`: 81 fresh cells, then for each i the row and the
      column i, then the boxes row by row; every group is linked to its cells
      as it is created. */
  method CreateEmptyBoard() returns (b: Board)
    ensures b == EmptyBoard()
  {
    var cells := seq(81, p requires 0 <= p < 81 => NewCell(p / 9, p % 9));
    var constraints: seq<Constraint> := [];
    for i := 0 to 9
      invariant Built(cells, constraints) && |constraints| == 2 * i
    {
      cells, constraints := AddGroup(cells, constraints, Group(Row, RowCells(i)));
      cells, constraints := AddGroup(cells, constraints, Group(Column, ColumnCells(i)));
    }
    for br := 0 to 3
      invariant Built(cells, constraints) && |constraints| == 18 + 3 * br
    {
      for bc := 0 to 3
        invariant Built(cells, constraints) && |constraints| == 18 + 3 * br + bc
      {
        cells, constraints := AddGroup(cells, constraints, Group(Box, BoxCells(br, bc)));
      }
    }
    b := Board(cells, constraints);
    assert b.cells == EmptyBoard().cells;
  }

  /** Each group of the empty board lists nine distinct positions of the grid. */
  lemma GroupDistinct(k: nat)
    requires k < 27
    ensures |StructuralGroup(k).cells| == 9
    ensures Within(StructuralGroup(k).cells, 81) && Distinct(StructuralGroup(k).cells)
  {
    if k >= 18 {
      var br, bc := (k - 18) / 3, (k - 18) % 3;
      var box := BoxCells(br, bc);
      forall t | 0 <= t < 9 ensures box[t] < 81 {
        BoxCellAt(br, bc, t);
      }
      forall s, t | 0 <= s < t < 9 ensures box[s] != box[t] {
        BoxCellAt(br, bc, s);
        BoxCellAt(br, bc, t);
      }
    }
  }

  // ---------------------------------------------------------------------
  // The branch-cell heuristic (find_least_num_possible_cell)
  // ---------------------------------------------------------------------

  /** Among the first `n` cells, `p` is empty, has a smallest domain among the
      empty ones, and every empty cell before it has a strictly larger domain. */
  predicate LeastUpTo(cells: seq<Cell>, p: nat, n: nat)
    requires n <= |cells|
  {
    && p < n
    && cells[p].value == 0
    && (forall q :: 0 <= q < n && cells[q].value == 0 ==> |cells[p].domain| <= |cells[q].domain|)
    && (forall q :: 0 <= q < p && cells[q].value == 0 ==> |cells[p].domain| < |cells[q].domain|)
  }

  /** Python's `min` over the empty cells in row-major order: the first of
      the empty cells with the fewest candidates. */
  predicate IsLeast(cells: seq<Cell>, p: nat)
  {
    LeastUpTo(cells, p, |cells|)
  }

  /** At most one cell is the least. */
  lemma LeastUnique(cells: seq<Cell>, p: nat, q: nat)
    requires IsLeast(cells, p) && IsLeast(cells, q)
    ensures p == q
  {
  }

  function Scan(cells: seq<Cell>, i: nat, best: Option<nat>): (r: Option<nat>)
    requires i <= |cells|
    requires best.None? ==> forall q :: 0 <= q < i ==> cells[q].value != 0
    requires best.Some? ==> LeastUpTo(cells, best.value, i)
    ensures r.None? <==> forall q :: 0 <= q < |cells| ==> cells[q].value != 0
    ensures r.Some? ==> IsLeast(cells, r.value)
    decreases |cells| - i
  {
    if i == |cells| then best
    else if cells[i].value == 0 && (best.None? || |cells[i].domain| < |cells[best.value].domain|) then
      Scan(cells, i + 1, Some(i))
    else
      Scan(cells, i + 1, best)
  }

  /** The branch cell: None when no cell is empty, otherwise the first empty
      cell, in row-major order, with the fewest candidates. */
  function FindLeast(cells: seq<Cell>): (r: Option<nat>)
    ensures r.None? <==> forall q :: 0 <= q < |cells| ==> cells[q].value != 0
    ensures r.Some? ==> IsLeast(cells, r.value)
  {
    Scan(cells, 0, None)
  }

  // ---------------------------------------------------------------------
  // The naked-single fill loop (SudokuBoard.solve)
  // ---------------------------------------------------------------------

  /** The element of a one-digit set (what `pop` returns on it). */
  function Only(s: set<int>): (r: int)
    requires s <= Digits && |s| == 1
    ensures s == {r}
  {
    var r := Ascending(s)[0];
    assert r in Elems(Ascending(s));
    assert forall x :: x in s ==> x == r by {
      forall x | x in s ensures x == r {
        assert x in Elems(Ascending(s));
      }
    }
    r
  }

  /** `pop` on the domain of empty cell `p`: the domain becomes empty and
      nothing else changes. */
  function Pop(b: Board, p: nat): (r: Board)
    requires WellFormed(b) && p < |b.cells| && b.cells[p].value == 0
    ensures WellFormed(r) && Extends(b, r)
    ensures r.cells[p] == b.cells[p].(domain := {})
    ensures forall q :: 0 <= q < |b.cells| && q != p ==> r.cells[q] == b.cells[q]
    ensures EmptyCells(r.cells) == EmptyCells(b.cells)
  {
    var r := Board(b.cells[p := b.cells[p].(domain := {})], b.constraints);
    assert forall q :: 0 <= q < |b.cells| ==> r.cells[q].value == b.cells[q].value;
    r
  }

  /** One round of the fill loop on empty cell `p` whose domain holds a single
      digit: the digit is popped (leaving the domain empty) and assigned; the
      other cells only lose candidates to the propagation that follows. */
  function FillOne(b: Board, p: nat): (r: Board)
    requires WellFormed(b) && p < |b.cells|
    requires b.cells[p].value == 0 && |b.cells[p].domain| == 1
    ensures WellFormed(r) && Extends(b, r)
    ensures b.cells[p].domain == {r.cells[p].value} && 1 <= r.cells[p].value <= 9
    ensures r.cells[p].domain == {}
    ensures r.cells[p].row == b.cells[p].row && r.cells[p].col == b.cells[p].col
    ensures forall q :: 0 <= q < |b.cells| && q != p ==> Narrows(b.cells[q], r.cells[q])
    ensures EmptyCells(r.cells) == EmptyCells(b.cells) - {p}
  {
    var v := Only(b.cells[p].domain);
    var popped := Pop(b, p);
    DigitsRange(v);
    SetValueFills(popped, p, v);
    ExtendsTransitive(b, popped, SetValue(popped, p, v));
    SetValue(popped, p, v)
  }

  /** One round of the fill loop: the board it started from and the cell it
      filled. */
  datatype FillStep = FillStep(before: Board, cell: nat)

  /** The outcome of the fill loop: the board it leaves, the updates it
      reported, the rounds behind them, and whether it raised before filling
      anything. */
  datatype Fill = Fill(board: Board, trace: seq<CellUpdate>, steps: seq<FillStep>, raised: bool)

  /** What the fill loop promises about the board `r` leaves behind, starting
      from `b`: it stays well formed, keeps every placed value and every
      cell's position, a cell still empty has only lost candidates, one
      update is reported per cell filled, and the loop stopped because no
      cell is empty or the next branch cell has not exactly one candidate. */
  predicate FillShape(b: Board, r: Fill)
  {
    && WellFormed(r.board) && Extends(b, r.board)
    && |r.trace| + |EmptyCells(r.board.cells)| == |EmptyCells(b.cells)|
    && (forall n :: 0 <= n < |r.trace| ==> 1 <= r.trace[n].value <= 9)
    && (FindLeast(r.board.cells).Some? ==> |r.board.cells[FindLeast(r.board.cells).value].domain| != 1)
    && (forall q :: 0 <= q < |b.cells| ==>
          r.board.cells[q].row == b.cells[q].row && r.board.cells[q].col == b.cells[q].col)
    && (forall q :: 0 <= q < |b.cells| && r.board.cells[q].value == 0 ==> Narrows(b.cells[q], r.board.cells[q]))
  }

  /** Round `n` of the run: its cell was empty at the start, was the branch
      cell of the board the round began with, had exactly the reported digit
      as its only candidate, and the update names that cell and the value it
      ends with. */
  predicate StepOk(b: Board, r: Fill, n: nat)
    requires n < |r.trace| && n < |r.steps| && |r.board.cells| == |b.cells|
  {
    var q := r.steps[n].cell;
    var before := r.steps[n].before;
    && q < |b.cells| && b.cells[q].value == 0
    && WellFormed(before) && FindLeast(before.cells) == Some(q) && q < |before.cells|
    && before.cells[q].domain == {r.trace[n].value}
    && r.trace[n] == CellUpdate(b.cells[q].row, b.cells[q].col, r.board.cells[q].value)
  }

  /** Every reported update comes from a round that filled a single-candidate
      branch cell, and no cell is filled twice. */
  predicate FillSteps(b: Board, r: Fill)
  {
    && |r.steps| == |r.trace| && |r.board.cells| == |b.cells|
    && (forall n :: 0 <= n < |r.trace| ==> StepOk(b, r, n))
    && (forall n, m :: 0 <= n < m < |r.steps| ==> r.steps[n].cell != r.steps[m].cell)
  }

  /** The recorded rounds replay the run: the first starts from `b`, each
      fills its single-candidate cell of the board the previous one left, and
      the last leaves `end`. */
  predicate Rounds(b: Board, steps: seq<FillStep>, end: Board)
    decreases |steps|
  {
    if steps == [] then end == b
    else
      var p := steps[0].cell;
      && steps[0].before == b
      && WellFormed(b) && p < |b.cells| && b.cells[p].value == 0 && |b.cells[p].domain| == 1
      && Rounds(FillOne(b, p), steps[1..], end)
  }

  /** Everything the fill loop promises about a run from `b`. */
  predicate FillOk(b: Board, r: Fill)
  {
    FillShape(b, r) && FillSteps(b, r) && Rounds(b, r.steps, r.board)
  }

  /** The run that stops at once. */
  lemma FillOkStop(b: Board, raised: bool)
    requires WellFormed(b)
    requires FindLeast(b.cells).Some? ==> |b.cells[FindLeast(b.cells).value].domain| != 1
    ensures FillOk(b, Fill(b, [], [], raised))
  {
    assert forall q :: 0 <= q < |b.cells| ==> Narrows(b.cells[q], b.cells[q]);
  }

  /** What one round of the loop does to the board, as far as a run of
      rounds needs it: cell `p` is filled with a digit, nothing else is
      filled, and the other cells only lose candidates. */
  predicate Round(b: Board, p: nat, next: Board)
  {
    && WellFormed(b) && p < |b.cells| && b.cells[p].value == 0
    && WellFormed(next) && Extends(b, next)
    && next.cells[p].row == b.cells[p].row && next.cells[p].col == b.cells[p].col
    && 1 <= next.cells[p].value <= 9
    && (forall q :: 0 <= q < |b.cells| && q != p ==> Narrows(b.cells[q], next.cells[q]))
    && EmptyCells(next.cells) == EmptyCells(b.cells) - {p}
  }

  /** The update the loop reports after a round that filled `p`. */
  function Filled(next: Board, p: nat): CellUpdate
    requires p < |next.cells|
  {
    CellUpdate(next.cells[p].row, next.cells[p].col, next.cells[p].value)
  }

  /** The run that does round `p` and then continues as `rest`. */
  function Then(b: Board, p: nat, next: Board, rest: Fill): Fill
    requires p < |next.cells|
  {
    Fill(rest.board, [Filled(next, p)] + rest.trace, [FillStep(b, p)] + rest.steps, false)
  }

  /** One more round in front of a finished run is still a finished run. */
  lemma FillOkCons(b: Board, p: nat, next: Board, rest: Fill)
    requires Round(b, p, next) && |b.cells[p].domain| == 1 && next == FillOne(b, p)
    requires FindLeast(b.cells) == Some(p) && b.cells[p].domain == {next.cells[p].value}
    requires FillOk(next, rest)
    ensures FillOk(b, Then(b, p, next, rest))
  {
    FillShapeCons(b, p, next, rest);
    FillStepsCons(b, p, next, rest);
    RoundsCons(b, p, rest);
  }

  lemma RoundsCons(b: Board, p: nat, rest: Fill)
    requires WellFormed(b) && p < |b.cells| && b.cells[p].value == 0 && |b.cells[p].domain| == 1
    requires Rounds(FillOne(b, p), rest.steps, rest.board)
    ensures Rounds(b, [FillStep(b, p)] + rest.steps, rest.board)
  {
    assert ([FillStep(b, p)] + rest.steps)[1..] == rest.steps;
  }

  lemma FillShapeCons(b: Board, p: nat, next: Board, rest: Fill)
    requires Round(b, p, next)
    requires FillShape(next, rest)
    ensures FillShape(b, Then(b, p, next, rest))
  {
    assert p in EmptyCells(b.cells);
    ExtendsTransitive(b, next, rest.board);
    DigitUpdatesCons(Filled(next, p), rest.trace);
    forall q | 0 <= q < |b.cells| && rest.board.cells[q].value == 0
      ensures Narrows(b.cells[q], rest.board.cells[q])
    {
      assert next.cells[q].value == 0;
      NarrowsTransitive(b.cells[q], next.cells[q], rest.board.cells[q]);
    }
  }

  lemma FillStepsCons(b: Board, p: nat, next: Board, rest: Fill)
    requires Round(b, p, next)
    requires FindLeast(b.cells) == Some(p) && b.cells[p].domain == {next.cells[p].value}
    requires Extends(next, rest.board) && FillSteps(next, rest)
    ensures FillSteps(b, Then(b, p, next, rest))
  {
    StepsCons(b, p, next, rest);
    CellsDistinctCons(b, p, next, rest);
  }

  lemma StepsCons(b: Board, p: nat, next: Board, rest: Fill)
    requires Round(b, p, next)
    requires FindLeast(b.cells) == Some(p) && b.cells[p].domain == {next.cells[p].value}
    requires Extends(next, rest.board) && FillSteps(next, rest)
    ensures forall n :: 0 <= n < |Then(b, p, next, rest).trace| ==> StepOk(b, Then(b, p, next, rest), n)
  {
    var r := Then(b, p, next, rest);
    forall n | 0 <= n < |r.trace| ensures StepOk(b, r, n) {
      if n == 0 {
        FillStepHead(b, p, next, rest);
      } else {
        FillStepShift(b, p, next, rest, n);
      }
    }
  }

  lemma CellsDistinctCons(b: Board, p: nat, next: Board, rest: Fill)
    requires Round(b, p, next)
    requires FillSteps(next, rest)
    ensures forall n, m :: 0 <= n < m < |Then(b, p, next, rest).steps| ==>
              Then(b, p, next, rest).steps[n].cell != Then(b, p, next, rest).steps[m].cell
  {
    var r := Then(b, p, next, rest);
    forall n, m | 0 <= n < m < |r.steps| ensures r.steps[n].cell != r.steps[m].cell {
      assert r.steps[m] == rest.steps[m - 1];
      if n == 0 {
        assert StepOk(next, rest, m - 1);
      } else {
        assert r.steps[n] == rest.steps[n - 1];
      }
    }
  }

  lemma FillStepHead(b: Board, p: nat, next: Board, rest: Fill)
    requires Round(b, p, next)
    requires FindLeast(b.cells) == Some(p) && b.cells[p].domain == {next.cells[p].value}
    requires Extends(next, rest.board) && |rest.steps| == |rest.trace|
    ensures StepOk(b, Then(b, p, next, rest), 0)
  {
    assert rest.board.cells[p].value == next.cells[p].value;
  }

  lemma FillStepShift(b: Board, p: nat, next: Board, rest: Fill, n: nat)
    requires Round(b, p, next)
    requires FillSteps(next, rest)
    requires 0 < n <= |rest.trace|
    ensures StepOk(b, Then(b, p, next, rest), n)
  {
    var r := Then(b, p, next, rest);
    assert StepOk(next, rest, n - 1);
    assert r.steps[n] == rest.steps[n - 1] && r.trace[n] == rest.trace[n - 1];
    var q := rest.steps[n - 1].cell;
    assert q != p && next.cells[q].value == 0;
    assert Narrows(b.cells[q], next.cells[q]);
  }

  /** The fill loop from branch cell `p` on: while the branch cell's domain
      holds exactly one digit, fill it and report the fill. */
  function FillFrom(b: Board, p: nat): (r: Fill)
    requires WellFormed(b) && FindLeast(b.cells) == Some(p)
    ensures FillOk(b, r) && !r.raised
    decreases |EmptyCells(b.cells)|
  {
    if |b.cells[p].domain| != 1 then
      FillOkStop(b, false);
      Fill(b, [], [], false)
    else
      var next := FillOne(b, p);
      assert Round(b, p, next);
      var rest := match FindLeast(next.cells)
        case None => (FillOkStop(next, false); Fill(next, [], [], false))
        case Some(q) => FillFrom(next, q);
      FillOkCons(b, p, next, rest);
      Then(b, p, next, rest)
  }

  /** Putting a digit update in front of digit updates gives digit updates. */
  lemma DigitUpdatesCons(u: CellUpdate, t: seq<CellUpdate>)
    requires 1 <= u.value <= 9
    requires forall n :: 0 <= n < |t| ==> 1 <= t[n].value <= 9
    ensures forall n :: 0 <= n < |[u] + t| ==> 1 <= ([u] + t)[n].value <= 9
  {
    forall n | 0 <= n < |[u] + t| ensures 1 <= ([u] + t)[n].value <= 9 {
      if n > 0 {
        assert ([u] + t)[n] == t[n - 1];
      }
    }
  }

  /** `solve` of the board: the fill loop started at the branch cell. When no
      cell is empty to begin with, the source reads a field of None and
      raises; `raised` reports that and the board is left as it was. */
  function FillSingles(b: Board): (r: Fill)
    requires WellFormed(b)
    ensures FillOk(b, r)
    ensures r.raised <==> forall p :: 0 <= p < |b.cells| ==> b.cells[p].value != 0
    ensures r.raised ==> r.board == b && r.trace == []
    ensures |r.trace| <= 81
  {
    EmptyCellsBound(b.cells);
    match FindLeast(b.cells)
    case None => (FillOkStop(b, true); Fill(b, [], [], true))
    case Some(p) => FillFrom(b, p)
  }
}

=== FILE: sudoku_cell.dfy ===
/** One grid position of the Sudoku board. A cell keeps its row and column,
    its assigned value (0 means empty), its candidate domain and the list of
    constraints it belongs to. Constraints live in the board's constraint
    list, so a cell refers to them by their position in that list. */
module SudokuCell {
  import opened Collections

  datatype Cell = Cell(
    row: int,
    col: int,
    value: int,       // 0 when the cell is empty
    domain: set<int>, // candidate digits while the cell is empty
    links: seq<nat>   // positions of this cell's constraints in the board's list
  )

  /** A freshly constructed cell: empty, every digit a candidate, no constraints. */
  function NewCell(row: int, col: int): (r: Cell)
    ensures r.row == row && r.col == col && r.value == 0 && r.links == []
    ensures forall d :: d in r.domain <==> 1 <= d <= 9
  {
    Cell(row, col, 0, Digits, [])
  }

  /** The cell's numeric identifier, `row * 10 + col`. */
  function Id(c: Cell): int
  {
    c.row * 10 + c.col
  }

  /** Within the 9x9 grid, distinct positions have distinct identifiers. */
  lemma IdInjective(a: Cell, b: Cell)
    requires 0 <= a.row <= 8 && 0 <= a.col <= 8
    requires 0 <= b.row <= 8 && 0 <= b.col <= 8
    ensures Id(a) == Id(b) <==> a.row == b.row && a.col == b.col
  {
  }

  /** `next` is `c` with possibly fewer candidates and nothing else changed:
      the only effect constraint propagation may have on a cell. */
  predicate Narrows(c: Cell, next: Cell)
  {
    next == c.(domain := next.domain) && next.domain <= c.domain
  }

  lemma NarrowsTransitive(a: Cell, b: Cell, c: Cell)
    requires Narrows(a, b) && Narrows(b, c)
    ensures Narrows(a, c)
  {
  }
}
